=== FILE: README.md ===
# ethereum-block-scanner core, modelled in Dafny

The scanner indexes Ethereum transactions by address. It talks to a node
over JSON-RPC and uses two in-memory stores.

- The **transaction history repository** holds, per address, an inbound
  ledger and an outbound ledger of transactions. It also holds a
  "latest block" watermark.
- The **subscriptions repository** holds the set of subscribed addresses and,
  per address, a log of observed transactions.

The SDK (`BlockParser`) has these operations:

- fetching the latest block number;
- fetching a block's transactions;
- a block-range scan that fills the history repository;
- subscribing, and reading a subscriber's log.

Two pollers run the same tick forever. On each tick they take the subscriber
set, fetch the latest block, and record the matches:

- `BlockObserver` appends to the subscription logs;
- `BlockListener` inserts into a history repository.

Below all this sit the following pieces:

- the generic `MultiMap`;
- hex conversion of block numbers;
- the JSON-RPC request builder and response-error classification;
- the functional options of the JSON-RPC and HTTP clients.

The model is functional. A store is an immutable datatype. Every repository
operation and every poller tick is a function from the old state to the new
one.

- **Node calls are inputs.** An operation receives as a parameter what the
  node answered, or how the call failed. It returns the calls it issued and
  the errors it produced.
- **Nil and empty slices differ.** Go distinguishes a nil slice from an empty
  one (JSON `null` vs `[]`). The model keeps the difference with
  `Slice<T> = Nil | Of(elems)`.
- **Block numbers, watermarks and the scan range are `Int64`.** These are
  the Go `int` values the code does arithmetic on, and their wrap-around is
  written out (`Wrap64`). Integers that are only stored, compared or
  printed (RPC error codes, response ids, HTTP statuses) are unbounded
  `int`.
- **`HexToInt` follows `strconv.ParseInt(s, 16, 64)`.** It accepts an
  optional sign. It scans digits left to right, so an overflow is reported
  before a later bad character. Its bounds are the int64 bounds.

Files and modules:

| file | module |
|---|---|
| results.dfy | `Results`: Option, Result, and Go slices with nil |
| ascii.dfy | `Ascii`: `strings.ToLower` on ASCII letters |
| numbers.dfy | `Numbers`: int64, `HexToInt`, `IntToHex`, `strconv.Itoa` |
| multimap.dfy | `MultiMaps` |
| blocks.dfy | `Blocks`: the transaction fields used |
| tx_history.dfy | `TxHistory` |
| subscriptions.dfy | `Subscriptions` |
| matching.dfy | `Matching`: inbound/outbound classification and the shared inner loop |
| block_parser.dfy | `BlockParser` |
| poll.dfy | `Poll`: the fetch both poller ticks start with |
| block_observer.dfy | `BlockObserver` |
| block_listener.dfy | `BlockListener` |
| jsonrpc_errors.dfy | `JsonRpcErrors` |
| jsonrpc_request.dfy | `JsonRpcRequest` |
| jsonrpc_options.dfy | `JsonRpcOptions` |
| httpx_options.dfy | `HttpxOptions` |

Behaviour of the code that a reader might not expect:

- **The scan floor is not clamped at 0.** It is `latest - blockRange`. With
  no positive watermark, a range larger than the chain height makes
  `blockRange + 1` passes.
- **A scan without any match does not move the watermark.** The watermark is
  only written by inserts, so a scan with no match leaves it where it was:
  -1 for an address never recorded.
- **Only the latest block is examined.** The range loop re-examines that same
  block once per pass. Each match is recorded once per pass. A repeated query
  on an unchanged chain resumes at the watermark, which equals `latest`, and
  so appends the latest block's matches again
  (`BlockParser.RepeatScanDuplicates`).
- **The watermark is monotone only in the range scan.** It never decreases
  there when it is positive. The listener can lower it, because its inserts
  overwrite the watermark with whatever block number was fetched.

## Model

| member | source | states |
|---|---|---|
| MultiMaps.Get | pkg/storage/memory/multimap.go:16-25 | found iff the key is present; a missing key gives a nil slice; a present one gives its stored values |
| MultiMaps.Put | pkg/storage/memory/multimap.go:27-32 | the key's values become the old values followed by the new one, and the key is found; every other key reads as before |
| MultiMaps.PutAllValues | pkg/storage/memory/multimap.go:27-32 | after any sequence of puts, a key holds its old values followed by exactly the values put to it, in order |
| MultiMaps.PutAllPreservesAbsence | pkg/storage/memory/multimap.go:27-32 | puts to other keys leave a key's lookup result unchanged, nil-ness included |
| MultiMaps.FoundIffValues | pkg/storage/memory/multimap.go:19-32 | in a map built by puts, a key is found exactly when it has values |
| TxHistory.New | pkg/storage/memory/transactions_repository.go:16-23 | for every address, a fresh repository reports watermark -1, nil inbound and outbound ledgers, and an empty but non-nil combined ledger |
| TxHistory.NewIsValid | pkg/storage/memory/transactions_repository.go:16-23 | a fresh repository satisfies the invariant that `Insert` preserves |
| TxHistory.GetLatestBlockNumberPerAddress | pkg/storage/memory/transactions_repository.go:36-44 | the stored watermark, or -1 when the address was never recorded |
| TxHistory.GetInboundTransactionsPerAddress | pkg/storage/memory/transactions_repository.go:46-54 | nil exactly when the address has no inbound entry; otherwise its inbound ledger |
| TxHistory.GetOutboundTransactionsPerAddress | pkg/storage/memory/transactions_repository.go:56-64 | nil exactly when the address has no outbound entry; otherwise its outbound ledger |
| TxHistory.GetAllTransactionsPerAddress | pkg/storage/memory/transactions_repository.go:66-74 | never nil; the inbound ledger followed by the outbound ledger |
| TxHistory.Insert | pkg/storage/memory/transaction_history_repository.go:25-34 | the watermark becomes the given block number, even a smaller one; the transaction is appended to the inbound ledger iff `isInbound`, else to the outbound one; every other address is unchanged |
| TxHistory.InsertGrowsLedger | pkg/storage/memory/transactions_repository.go:25-34 | an insert grows the full ledger by one: an inbound one at the end of the inbound part, an outbound one at the very end |
| TxHistory.InboundBeforeOutbound | pkg/storage/memory/transactions_repository.go:66-74 | the full ledger lists inbound before outbound, whatever the insertion order |
| TxHistory.LedgerLength | pkg/storage/memory/transactions_repository.go:67-74 | the full ledger's length is the sum of the two directions' lengths |
| TxHistory.NilIffNoTransactions | pkg/storage/memory/transactions_repository.go:46-64 | in a repository built by inserts, a direction getter returns nil exactly when that direction holds no transaction |
| Subscriptions.New | pkg/storage/memory/subscriptions_repository.go:17-22 | a fresh repository has no subscriber and empty logs |
| Subscriptions.InsertSubscriberAddress | pkg/storage/memory/subscriptions_repository.go:24-29 | the subscriber set gains exactly the address; no log changes; only the sentinel -1 is ever stored |
| Subscriptions.InsertSubscriberIdempotent | pkg/storage/memory/subscriptions_repository.go:24-29 | subscribing twice equals subscribing once |
| Subscriptions.InsertObservedTransaction | pkg/storage/memory/subscriptions_repository.go:31-34 | appends to the address's log whether or not it is subscribed; the subscriber set and other logs are unchanged |
| Subscriptions.GetAllSubscriptions | pkg/storage/memory/subscriptions_repository.go:36-50 | every subscriber exactly once, in some order; the length equals the number of subscribers |
| Subscriptions.GetLastCheckedBlockNumberPerAddress | pkg/storage/memory/subscriptions_repository.go:52-63 | -1 for a stranger; -1 for every address in any repository built by the operations |
| Subscriptions.GetObservedTransactionsPerAddress | pkg/storage/memory/subscriptions_repository.go:65-73 | never nil; the log in insertion order, empty when nothing was recorded |
| Ascii.ToLower | pkg/sdk/block_parser.go:107 | same length, and every character is lowered one by one: an ASCII upper-case letter becomes its lower-case letter, anything else is kept |
| Ascii.ToLowerIdempotent | pkg/sdk/block_parser.go:107 | lower-casing twice equals lower-casing once |
| Ascii.ToLowerFixpoint | pkg/sdk/block_parser.go:107 | lower-casing leaves a string unchanged iff it has no upper-case letter |
| Numbers.IntToHex | pkg/numbers/numbers.go:19-22 | "0x", then a minus sign iff the number is negative, then lower-case hex digits with no leading zero whose value is the magnitude |
| Numbers.HexRoundTrip | pkg/numbers/numbers.go:9-22 | `HexToInt(IntToHex(n)) == n` for every int64 `n`, negatives included |
| Numbers.HexToInt | pkg/numbers/numbers.go:9-17 | after removing one leading "0x", parsing succeeds iff the rest is an int64 hex numeral (`IsHexInt64`), and then yields its value (`SignedValue`); an optionally signed, non-empty run of hex digits whose value is out of the int64 range is a range error |
| Numbers.HexToIntSpec | pkg/numbers/numbers.go:9-17 | after removing one leading "0x", parsing succeeds iff the rest is an optionally signed, non-empty run of hex digits whose value is in the int64 range, and then yields that value |
| Numbers.ParseInt16Spec | pkg/numbers/numbers.go:11 | parsing succeeds iff the input is an int64 hex numeral (`IsHexInt64`), and then yields its value (`SignedValue`); an optionally signed, non-empty run of hex digits whose value is out of the int64 range is a range error |
| Numbers.HexToIntIgnoresCase | pkg/numbers/numbers.go:9-17 | upper- and lower-case hex digits read the same, unless the prefix itself is an upper-case "0X" |
| Numbers.ScanHexDigits | pkg/numbers/numbers.go:11 | the digit scan yields the digits' value when it fits in 64 bits, else a range error |
| Matching.Classify | pkg/sdk/block_listener.go:53-58 | a transaction is filed (inbound or outbound) iff it involves the address; it is inbound iff the address is its lower-cased `to`, so a `to` match wins over a `from` match |
| Matching.RecordMatches | pkg/sdk/block_parser.go:115-123 | the inner loop over the block's transactions; characterised by `RecordMatchesInbound`, `RecordMatchesOutbound`, `RecordMatchesWatermark` and `RecordMatchesFrame` |
| Matching.ClassifyCoversInvolves | pkg/sdk/block_parser.go:118-122 | a transaction is filed (inbound or outbound) exactly when it involves the address; a self-transfer is inbound |
| Matching.FiledPartitionsInvolving | pkg/sdk/block_listener.go:52-60 | every involved transaction lands in exactly one of the two ledgers |
| Matching.InvolvingAppend | pkg/sdk/block_observer.go:47-53 | the observer's filter keeps block order, and keeps each transaction once iff it involves the address |
| Matching.RecordMatchesInbound | pkg/sdk/block_parser.go:115-123 | the inner loop appends the `to` matches, in block order, to the inbound ledger; that ledger is unchanged (nil or not) when nothing is inbound |
| Matching.RecordMatchesOutbound | pkg/sdk/block_parser.go:115-123 | the inner loop appends the remaining `from` matches, in block order, to the outbound ledger; that ledger is unchanged when nothing is outbound |
| Matching.RecordMatchesWatermark | pkg/sdk/block_parser.go:119-121 | the inner loop sets the watermark to the block number used iff some transaction matched |
| Matching.RecordMatchesFrame | pkg/sdk/block_parser.go:115-123 | the inner loop leaves every other address's ledgers and watermark alone |
| BlockParser.GetCurrentBlock | pkg/sdk/block_parser.go:54-69 | -1 plus the error when the call fails (the call's error, as an upstream error) or its result does not parse as hex (the parser's own error); otherwise the parsed number and no error |
| BlockParser.CurrentBlockReadsHex | pkg/sdk/block_parser.go:54-69 | a node answering with `IntToHex(n)` gives exactly `n` |
| BlockParser.MissingResultIsSyntaxError | pkg/sdk/block_parser.go:61-66 | a response with no result renders as "<nil>" and yields -1 with a syntax error |
| BlockParser.GetBlockTransactions | pkg/sdk/block_parser.go:78-89 | asks for the block written by `IntToHex` (no leading zeros), with full transactions; nil plus the error iff the call fails, else the block's transactions |
| BlockParser.BlockCallNamesTheBlock | pkg/sdk/block_parser.go:82-83 | the hex block number sent to the node reads back as the requested number |
| BlockParser.Subscribe | pkg/sdk/block_parser.go:71-76 | always true; the subscriber set gains the lower-cased address; the logs are untouched; a store whose subscribers all read -1 stays so |
| BlockParser.SubscribeNormalises | pkg/sdk/block_parser.go:71-76 | case variants subscribe the same key, and the subscriber set stays lower case |
| BlockParser.GetTransactionsPerSubscriber | pkg/sdk/block_parser.go:129-134 | never nil; the log of the lower-cased address |
| BlockParser.SubscriberLookupIgnoresCase | pkg/sdk/block_parser.go:129-134 | an address and its lower-case form see the same log |
| BlockParser.ScanLoop | pkg/sdk/block_parser.go:114-124 | the countdown loop with int64 wrap-around on `i--`; characterised by `ScanLoopCount` |
| BlockParser.Rescan | pkg/sdk/block_parser.go:115-123 | `k` passes of the inner loop; characterised by `RescanEffect` and `RescanFrame` |
| BlockParser.ScanLoopCount | pkg/sdk/block_parser.go:114-124 | the int64 countdown loop makes `max(0, latest - floor + 1)` passes |
| BlockParser.RescanEffect | pkg/sdk/block_parser.go:114-124 | after `k` passes, each ledger of the address is the old one followed by `k` copies of the block's matches for that direction; a direction without matches keeps its ledger, nil included; the watermark becomes `latest` iff `k > 0` and something matched |
| BlockParser.RescanFrame | pkg/sdk/block_parser.go:114-124 | the passes leave every other address's ledgers and watermark unchanged |
| BlockParser.GetTransactionsForBlockRange | pkg/sdk/block_parser.go:91-127 | it fails iff the number fetch or the block fetch fails, with that fetch's own error (the number fetch's first); a failure returns nil and leaves the repository untouched, and a failed number fetch means the block is never requested; on success it returns the lower-cased address's full ledger |
| BlockParser.RangeScanInbound | pkg/sdk/block_parser.go:95-126 | with `k` the pass count, the inbound ledger becomes the old one followed by `k` copies of the block's inbound matches (`to` matches, self-transfers included), in block order |
| BlockParser.RangeScanOutbound | pkg/sdk/block_parser.go:95-126 | with `k` the pass count, the outbound ledger becomes the old one followed by `k` copies of the block's remaining `from` matches, in block order |
| BlockParser.RangeScanGrows | pkg/sdk/block_parser.go:107-126 | the old ledgers are prefixes of the new ones and the returned ledger is never shorter than the old one |
| BlockParser.RangeScanWatermark | pkg/sdk/block_parser.go:107-124 | the watermark becomes `latest` iff some pass ran and the block holds a match, and is unchanged otherwise |
| BlockParser.RangeScanFrame | pkg/sdk/block_parser.go:91-127 | a scan, successful or not, leaves every other address's ledgers and watermark unchanged |
| BlockParser.NoMatchLeavesStore | pkg/sdk/block_parser.go:114-126 | a block with no match for the address changes neither its ledgers (nil stays nil) nor its watermark |
| BlockParser.RangeScanKeepsWatermark | pkg/sdk/block_parser.go:107-124 | a successful scan never lowers a positive watermark |
| BlockParser.FirstScanPasses | pkg/sdk/block_parser.go:100-114 | for a non-negative `blockRange` with `latest - blockRange` above the int64 minimum, no positive watermark means `blockRange + 1` passes, even past block 0 (a negative range gives none) |
| BlockParser.RepeatScanDuplicates | pkg/sdk/block_parser.go:107-126 | after a scan that matched, asking again on the same chain makes exactly one pass and returns a ledger longer by the number of matches |
| Poll.FetchLatestBlock | pkg/sdk/block_observer.go:37-45 | a tick always issues both calls; the block asked for is the number the node reported, or -1 when that call failed or its answer did not parse; a failed block fetch gives a nil list; the errors sent are the number fetch's error, then the block fetch's, each only when that call failed |
| Poll.FailedNumberRequestsMinusOne | pkg/sdk/block_listener.go:42-47 | a failed number fetch does not skip the tick: block "0x-1" is requested |
| BlockObserver.ObserverTick | pkg/sdk/block_observer.go:29-54 | with an empty snapshot, no call and no change; otherwise the fetch's calls and errors |
| BlockObserver.ObserveBlock | pkg/sdk/block_observer.go:48-52 | the inner loop for one subscriber; characterised by `ObserveBlockEffect` |
| BlockObserver.ObserveBlockEffect | pkg/sdk/block_observer.go:48-52 | the subscriber's log grows by exactly the block's transactions that involve it, in block order; the subscriber set and every other log are unchanged |
| BlockObserver.ObserveAll | pkg/sdk/block_observer.go:47-53 | the outer loop over the snapshot; characterised by `ObserveAllEffect` |
| BlockObserver.ObserveAllEffect | pkg/sdk/block_observer.go:47-53 | each subscriber's log grows by exactly the block's transactions that involve it, in block order; addresses outside the snapshot keep their logs |
| BlockObserver.FailedBlockFetchObservesNothing | pkg/sdk/block_observer.go:42-53 | after a failed block fetch no log changes, and the error is reported |
| BlockObserver.ListenForNewTransactions | pkg/sdk/block_observer.go:28-57 | one iteration: no subscriber means no call and no change; otherwise every subscriber's log grows by its involved transactions, and the other logs and the subscriber set stay |
| BlockObserver.SubscribeThenObserve | pkg/sdk/block_observer.go:47-53 | subscribing, then ticking over a block with a transaction to a case variant of the address, puts that transaction at the end of the address's log |
| BlockListener.ListenerTick | pkg/sdk/block_listener.go:35-60 | with an empty snapshot the tick is a no-op; otherwise the fetch's calls and errors |
| BlockListener.RecordAll | pkg/sdk/block_listener.go:52-60 | the outer loop over the snapshot; characterised by `RecordAllEffect` |
| BlockListener.RecordAllEffect | pkg/sdk/block_listener.go:52-60 | each subscriber gets its `to` matches inbound and its other `from` matches outbound, in block order, with the watermark set to the fetched number iff something matched; other addresses keep ledgers and watermark |
| BlockListener.FailedBlockFetchRecordsNothing | pkg/sdk/block_listener.go:47-60 | after a failed block fetch no ledger or watermark changes, and the error is reported |
| BlockListener.ListenForNewTransactions | pkg/sdk/block_listener.go:33-64 | one iteration over the subscriber snapshot: subscribers get their matches recorded under the fetched number; every other address is untouched; no subscriber means no call and no change |
| BlockListener.TransferBetweenSubscribers | pkg/sdk/block_listener.go:52-60 | a transfer between two subscribers lands inbound for the recipient and outbound for the sender, and both watermarks become the fetched number |
| JsonRpcErrors.HandleResponseError | pkg/transport/client/jsonrpc/errors.go:25-81 | no error iff the body decoded, a response is present and the status is below 400; the decode check comes first, then the missing response; an error carries the status as an HTTP code iff the status is 400 or more, whether or not the response has an RPC error |
| JsonRpcErrors.ErrorMessage | pkg/transport/client/jsonrpc/errors.go:20-23 | the text is the code in canonical decimal (a '-' iff negative, no leading zeros), then ": " and the message; it splits at its first colon back into the code and the message |
| Numbers.Itoa | pkg/transport/client/jsonrpc/errors.go:22 | `strconv.Itoa`: a '-' iff the number is negative, then decimal digits without leading zeros whose value is the magnitude |
| Numbers.ItoaRoundTrip | pkg/transport/client/jsonrpc/errors.go:22 | the decimal rendering of the code reads back as the code |
| JsonRpcRequest.Params | pkg/transport/client/jsonrpc/request.go:109-151 | no arguments (nil or empty) are omitted; a single non-nil argument whose kind, after removing every pointer layer, is a struct, array, slice, interface or map is sent as itself; anything else (a single nil, a single primitive, two or more) is sent as the array of all arguments |
| JsonRpcRequest.ParamsKeepsArguments | pkg/transport/client/jsonrpc/request.go:109-151 | whatever the shape, the arguments sent are exactly the arguments given |
| JsonRpcRequest.PrimitiveIsWrapped | pkg/transport/client/jsonrpc/request.go:121-140 | a single primitive argument is wrapped in a one-element array, through any number of pointers |
| JsonRpcRequest.NewRequestWithID | pkg/transport/client/jsonrpc/request.go:69-81 | the given id and method, version "2.0", and the arguments shaped as `Params` shapes them: omitted iff there are none, sent directly iff there is one non-nil argument whose pointed-to kind is a container, otherwise as the array of all of them; the arguments are kept in order |
| JsonRpcRequest.NewRequest | pkg/transport/client/jsonrpc/request.go:53-67 | the same request as `NewRequestWithID` with id 0, with the same `Params` shaping |
| JsonRpcOptions.DefaultConfig | pkg/transport/client/jsonrpc/options.go:8-13 | unknown fields are allowed and the default request id is 0 |
| JsonRpcOptions.Apply | pkg/transport/client/jsonrpc/options.go:24-36 | each option sets its own field and no other |
| JsonRpcOptions.ApplyOptions | pkg/transport/client/jsonrpc/options.go:15-19 | applies the options left to right; characterised by `LastOptionWins` |
| JsonRpcOptions.LastOptionWins | pkg/transport/client/jsonrpc/options.go:15-19 | after applying options in order, each field holds the value of the last option for it, or its starting value |
| HttpxOptions.DefaultClientConfig | pkg/transport/client/httpx/options.go:8-36 | request timeout 10, TLS handshake timeout 5, dialer timeout 5, and a redirect policy that follows every redirect |
| HttpxOptions.ApplyClientOption | pkg/transport/client/httpx/options.go:44-70 | each `WithCustom…` option sets its own field to its argument and leaves the other fields alone |
| HttpxOptions.ApplyClientOptions | pkg/transport/client/httpx/options.go:38-42 | applies the options left to right; characterised by `LastClientOptionWins` |
| HttpxOptions.LastClientOptionWins | pkg/transport/client/httpx/options.go:38-42 | after applying options in order, each field holds the last setting for it, or its starting value |
| HttpxOptions.DefaultRequestConfig | pkg/transport/client/httpx/options.go:87-93 | empty query parameters, no form-parameter map, no body, empty credentials |
| HttpxOptions.ApplyRequestOption | pkg/transport/client/httpx/options.go:102-129 | each option changes only its own part of the request; a form parameter on a request without a form map panics |
| HttpxOptions.ApplyRequestOptions | pkg/transport/client/httpx/options.go:95-100 | applies the options left to right and stops at the first panic; characterised by `FormParamPanicsOnDefault` and `LastQueryParamWins` |
| HttpxOptions.FormParamPanicsOnDefault | pkg/transport/client/httpx/options.go:87-121 | from the default request, applying options panics iff one of them is a form parameter |
| HttpxOptions.LastQueryParamWins | pkg/transport/client/httpx/options.go:95-114 | when applying succeeds, a query key holds the value of its last `WithQueryParam`, or its starting value |

## Left out

- Concurrency. This covers the locks, the `sync.Map`, the goroutines and the error channel. Each operation is modelled as one atomic step; errors sent to the channel become a returned list.
- The pollers' infinite loop and the five-second sleeps. Only one iteration is modelled.
- `MultiMap.PutAll` (pkg/storage/memory/multimap.go:34-41). It takes the write lock, then calls `Put`, which takes the lock again and deadlocks. It also releases with `RUnlock`. It never returns, so only the puts made one at a time are modelled (`MultiMaps.PutAllInOrder`).
- Networking and decoding. The JSON-RPC client's `Call` and `CallFor` (pkg/transport/client/jsonrpc/client.go), the HTTP client and requests (pkg/transport/client/httpx/client.go and request.go), and the JSON decoding of responses and blocks (pkg/transport/client/jsonrpc/response.go) are not modelled. Their outcomes are inputs.
- The HTTP handlers, the server, the configuration and `main`. They are outside the core.
- BlockParser.GetCurrentBlock: the `%v` rendering of the response's `result` is an input string. A missing result renders as "<nil>". A JSON number, which `%v` would print in decimal, is not modelled.
- BlockParser.GetTransactionsForBlockRange: the requires excludes a scan floor of exactly MinInt64. In Go the loop condition `i >= MinInt64` is always true and the loop never ends.
- Numbers.HexToInt: the 0 returned beside an error is dropped. Both callers discard it and use -1 or return.
- Numbers.HexToInt: `strconv.NumError` is reduced to its kind, syntax or range. The function name and the input it carries are dropped.
- JsonRpcErrors.HandleResponseError: the error texts are reduced to their reasons. The method name and redacted URL in them are dropped.
- JsonRpcErrors.ErrorMessage: `RPCError.Data` is dropped, because `Error()` does not print it.
- Ascii.ToLower: only ASCII letters are lowered. Go's `strings.ToLower` also lowers other Unicode letters. Ethereum addresses are ASCII.
- JsonRpcRequest.Params: arguments are reduced to their reflected kind and an identity. Their values are never inspected.
- HttpxOptions.ApplyClientOption: a redirect policy, a Go function in the source, is modelled as a tag. Likewise a request body (`io.Reader`) is a tag.
- Blocks: only the hash, `from` and `to` of a transaction are modelled. No other field is read.

=== FILE: ascii.dfy ===
/** ASCII case folding, the part of `strings.ToLower` that matters for
    hexadecimal account addresses. */
module Ascii {

  predicate IsUpper(c: char) {
    'A' <= c <= 'Z'
  }

  function LowerChar(c: char): (r: char)
    ensures !IsUpper(r)
    ensures !IsUpper(c) ==> r == c
    ensures IsUpper(c) ==> 'a' <= r <= 'z'
  {
    if IsUpper(c) then (c as int + ('a' as int - 'A' as int)) as char else c
  }

  /** No character of `s` is an upper-case ASCII letter. */
  predicate IsLowerCase(s: string) {
    forall i :: 0 <= i < |s| ==> !IsUpper(s[i])
  }

  function ToLower(s: string): (r: string)
    ensures |r| == |s|
    ensures forall i :: 0 <= i < |s| ==> r[i] == LowerChar(s[i])
  {
    if s == [] then [] else [LowerChar(s[0])] + ToLower(s[1..])
  }

  /** Lower-casing leaves no upper-case letter behind. */
  lemma ToLowerIsLowerCase(s: string)
    ensures IsLowerCase(ToLower(s))
  {
  }

  /** A string is its own lower-case form exactly when it has no upper-case letter. */
  lemma ToLowerFixpoint(s: string)
    ensures ToLower(s) == s <==> IsLowerCase(s)
  {
    if IsLowerCase(s) {
      assert forall i :: 0 <= i < |s| ==> ToLower(s)[i] == s[i];
    } else {
      var i :| 0 <= i < |s| && IsUpper(s[i]);
      assert ToLower(s)[i] != s[i];
    }
  }

  /** Lower-casing twice is the same as lower-casing once. */
  lemma ToLowerIdempotent(s: string)
    ensures ToLower(ToLower(s)) == ToLower(s)
  {
    ToLowerIsLowerCase(s);
    ToLowerFixpoint(ToLower(s));
  }

  /** Lower-casing distributes over concatenation. */
  lemma ToLowerAppend(s: string, t: string)
    ensures ToLower(s + t) == ToLower(s) + ToLower(t)
  {
    assert forall i :: 0 <= i < |s + t| ==> ToLower(s + t)[i] == (ToLower(s) + ToLower(t))[i];
  }
}

=== FILE: block_listener.dfy ===
/** One tick of the history poller (pkg/sdk/block_listener.go,
    `ListenForNewTransactions`): with no subscriber it does nothing;
    otherwise it fetches the latest block and records, for every subscriber,
    the block's transactions sent to it (inbound) or, failing that, sent by
    it (outbound), under the fetched block number. The infinite loop and the
    five-second sleeps are not modelled. */
module BlockListener {
  import opened Results
  import opened Numbers
  import opened Blocks
  import Subscriptions
  import TxHistory
  import opened BlockParser
  import opened Poll
  import Matching
  import Ascii

  /** What a tick leaves behind: the transaction repository, the calls
      issued and the errors sent to the channel. */
  datatype Tick = Tick(store: TxHistory.Store, calls: seq<RpcCall>, errors: seq<SdkError>)

  /** The outer loop over the snapshot, running the shared inner loop for
      each subscriber. */
  function RecordAll(s: TxHistory.Store, addrs: seq<string>, latest: Int64, txs: seq<Tx>): TxHistory.Store
    decreases |addrs|
  {
    if addrs == [] then s else RecordAll(Matching.RecordMatches(s, addrs[0], latest, txs), addrs[1..], latest, txs)
  }

  /** For a snapshot without repetitions: every subscriber in it gets exactly
      what the inner loop records for it (matches appended in block order,
      `to` before `from`, watermark set to `latest` iff something matched),
      and every address outside it keeps its ledgers and watermark. */
  lemma {:induction false} RecordAllEffect(s: TxHistory.Store, addrs: seq<string>, latest: Int64, txs: seq<Tx>, b: string)
    requires Subscriptions.Distinct(addrs)
    ensures b in addrs ==> Matching.RecordedFor(s, RecordAll(s, addrs, latest, txs), b, latest, txs)
    ensures b !in addrs ==> TxHistory.AgreeAt(RecordAll(s, addrs, latest, txs), s, b)
    decreases |addrs|
  {
    if addrs != [] {
      var s1 := Matching.RecordMatches(s, addrs[0], latest, txs);
      assert Subscriptions.Distinct(addrs[1..]);
      RecordAllEffect(s1, addrs[1..], latest, txs, b);
      assert b in addrs <==> b == addrs[0] || b in addrs[1..];
      if b == addrs[0] {
        assert b !in addrs[1..] by {
          forall i | 0 <= i < |addrs[1..]| ensures addrs[1..][i] != b {
            assert addrs[1..][i] == addrs[i + 1];
          }
        }
        Matching.RecordMatchesRecords(s, b, latest, txs);
      } else {
        Matching.RecordMatchesFrame(s, addrs[0], latest, txs, b);
      }
    }
  }

  /** The loop body of `ListenForNewTransactions` for a given snapshot. */
  function ListenerTick(s: TxHistory.Store, snapshot: seq<string>, numberReply: NumberReply, blockReply: BlockReply): (t: Tick)
    ensures snapshot == [] ==> t == Tick(s, [], [])
    ensures snapshot != [] ==> t.calls == FetchLatestBlock(numberReply, blockReply).calls
    ensures snapshot != [] ==> t.errors == FetchLatestBlock(numberReply, blockReply).errors
  {
    if snapshot == [] then Tick(s, [], [])
    else
      var fetch := FetchLatestBlock(numberReply, blockReply);
      Tick(RecordAll(s, snapshot, fetch.latest, Items(fetch.txs)), fetch.calls, fetch.errors)
  }

  /** When the block fetch fails no address's ledgers or watermark change;
      the error still reaches the channel. */
  lemma FailedBlockFetchRecordsNothing(s: TxHistory.Store, snapshot: seq<string>, numberReply: NumberReply, blockReply: BlockReply, b: string)
    requires Subscriptions.Distinct(snapshot)
    requires blockReply.Err?
    ensures var t := ListenerTick(s, snapshot, numberReply, blockReply);
      && TxHistory.AgreeAt(t.store, s, b)
      && (snapshot != [] ==> Upstream(blockReply.error) in t.errors)
  {
    if snapshot != [] {
      var fetch := FetchLatestBlock(numberReply, blockReply);
      RecordAllEffect(s, snapshot, fetch.latest, [], b);
      assert !Matching.HasMatch([], b);
      assert fetch.errors[|fetch.errors| - 1] == Upstream(blockReply.error);
    }
  }

  /** `ListenForNewTransactions`, one iteration: takes the snapshot of the
      subscriber set and runs the tick. Each subscriber gets its matches
      recorded under the fetched block number; every other address is
      untouched; with no subscriber nothing is fetched and nothing changes. */
  method ListenForNewTransactions(subs: Subscriptions.Store, s: TxHistory.Store, numberReply: NumberReply, blockReply: BlockReply)
    returns (t: Tick)
    ensures subs.subs.Keys == {} ==> t == Tick(s, [], [])
    ensures subs.subs.Keys != {} ==> t.calls == FetchLatestBlock(numberReply, blockReply).calls
    ensures forall b :: b in subs.subs ==>
              var f := FetchLatestBlock(numberReply, blockReply);
              Matching.RecordedFor(s, t.store, b, f.latest, Items(f.txs))
    ensures forall b :: b !in subs.subs ==> TxHistory.AgreeAt(t.store, s, b)
  {
    var snapshot := Subscriptions.GetAllSubscriptions(subs);
    t := ListenerTick(s, snapshot, numberReply, blockReply);
    var f := FetchLatestBlock(numberReply, blockReply);
    if snapshot == [] {
      assert |subs.subs.Keys| == 0;
    } else {
      forall b | b in subs.subs
        ensures Matching.RecordedFor(s, t.store, b, f.latest, Items(f.txs))
      {
        RecordAllEffect(s, snapshot, f.latest, Items(f.txs), b);
      }
      forall b | b !in subs.subs
        ensures TxHistory.AgreeAt(t.store, s, b)
      {
        RecordAllEffect(s, snapshot, f.latest, Items(f.txs), b);
      }
    }
  }

  /** A transaction sent by one subscriber to another in the fetched block
      lands in the recipient's inbound ledger and the sender's outbound
      ledger, and both watermarks become the fetched block number. */
  lemma TransferBetweenSubscribers(s: TxHistory.Store, snapshot: seq<string>, numberReply: NumberReply, tx: Tx)
    requires Subscriptions.Distinct(snapshot)
    requires Ascii.ToLower(tx.to) in snapshot && Ascii.ToLower(tx.from) in snapshot
    requires Ascii.ToLower(tx.to) != Ascii.ToLower(tx.from)
    ensures var t := ListenerTick(s, snapshot, numberReply, Ok(Of([tx])));
            var latest := GetCurrentBlock(numberReply).number;
            var to, from := Ascii.ToLower(tx.to), Ascii.ToLower(tx.from);
      && Items(TxHistory.GetInboundTransactionsPerAddress(t.store, to))
         == Items(TxHistory.GetInboundTransactionsPerAddress(s, to)) + [tx]
      && Items(TxHistory.GetOutboundTransactionsPerAddress(t.store, from))
         == Items(TxHistory.GetOutboundTransactionsPerAddress(s, from)) + [tx]
      && TxHistory.GetLatestBlockNumberPerAddress(t.store, to) == latest
      && TxHistory.GetLatestBlockNumberPerAddress(t.store, from) == latest
  {
    var to, from := Ascii.ToLower(tx.to), Ascii.ToLower(tx.from);
    var latest := GetCurrentBlock(numberReply).number;
    RecordAllEffect(s, snapshot, latest, [tx], to);
    RecordAllEffect(s, snapshot, latest, [tx], from);
    Matching.FiledOne(tx, to, Matching.Inbound);
    Matching.FiledOne(tx, from, Matching.Outbound);
  }
}

=== FILE: block_observer.dfy ===
/** One tick of the subscription poller (pkg/sdk/block_observer.go,
    `ListenForNewTransactions`): with no subscriber it does nothing;
    otherwise it fetches the latest block and appends to each subscriber's
    log every transaction of the block that the subscriber sent or received.
    The infinite loop and the five-second sleeps are not modelled. */
module BlockObserver {
  import opened Results
  import opened Blocks
  import opened Subscriptions
  import opened BlockParser
  import opened Poll
  import Ascii
  import Matching
  import MultiMaps

  /** What a tick leaves behind: the repository, the calls issued and the
      errors sent to the channel. */
  datatype Tick = Tick(store: Subscriptions.Store, calls: seq<RpcCall>, errors: seq<SdkError>)

  /** The inner loop for one subscriber: each involved transaction of the
      block, in order, is appended to its log. */
  function ObserveBlock(s: Subscriptions.Store, address: string, txs: seq<Tx>): Subscriptions.Store
    decreases |txs|
  {
    if txs == [] then s
    else
      var s1 := if Matching.Involves(address, txs[0]) then InsertObservedTransaction(s, address, txs[0]) else s;
      ObserveBlock(s1, address, txs[1..])
  }

  /** The outer loop over the snapshot. */
  function ObserveAll(s: Subscriptions.Store, addrs: seq<string>, txs: seq<Tx>): Subscriptions.Store
    decreases |addrs|
  {
    if addrs == [] then s else ObserveAll(ObserveBlock(s, addrs[0], txs), addrs[1..], txs)
  }

  /** The inner loop appends exactly the involved transactions, in block
      order, to the subscriber's log, leaves the subscriber set alone and
      leaves every other log exactly as it was. */
  lemma {:induction false} ObserveBlockEffect(s: Subscriptions.Store, address: string, txs: seq<Tx>, other: string)
    ensures var r := ObserveBlock(s, address, txs);
      && r.subs == s.subs
      && ObservedLog(r, address) == ObservedLog(s, address) + Matching.Involving(txs, address)
      && (other != address ==> MultiMaps.Get(r.observed, other) == MultiMaps.Get(s.observed, other))
    decreases |txs|
  {
    if txs != [] {
      var s1 := if Matching.Involves(address, txs[0]) then InsertObservedTransaction(s, address, txs[0]) else s;
      ObserveBlockEffect(s1, address, txs[1..], other);
      Matching.InvolvingOne(txs[0], address);
      Matching.InvolvingAppend([txs[0]], txs[1..], address);
      assert [txs[0]] + txs[1..] == txs;
    }
  }

  /** For a snapshot without repetitions: a subscriber's log grows by the
      block's transactions that involve it, in block order; an address
      outside the snapshot keeps its log. */
  lemma {:induction false} ObserveAllEffect(s: Subscriptions.Store, addrs: seq<string>, txs: seq<Tx>, b: string)
    requires Distinct(addrs)
    ensures var r := ObserveAll(s, addrs, txs);
      && r.subs == s.subs
      && ObservedLog(r, b) == ObservedLog(s, b) + (if b in addrs then Matching.Involving(txs, b) else [])
      && (b !in addrs ==> MultiMaps.Get(r.observed, b) == MultiMaps.Get(s.observed, b))
    decreases |addrs|
  {
    if addrs != [] {
      var s1 := ObserveBlock(s, addrs[0], txs);
      ObserveBlockEffect(s, addrs[0], txs, b);
      assert Distinct(addrs[1..]);
      ObserveAllEffect(s1, addrs[1..], txs, b);
      assert b in addrs <==> b == addrs[0] || b in addrs[1..];
      if b == addrs[0] {
        assert b !in addrs[1..] by {
          forall i | 0 <= i < |addrs[1..]| ensures addrs[1..][i] != b {
            assert addrs[1..][i] == addrs[i + 1];
          }
        }
      } else {
        assert ObservedLog(s1, b) == ObservedLog(s, b);
      }
    }
  }

  /** The loop body of `ListenForNewTransactions` for a given snapshot. */
  function ObserverTick(s: Subscriptions.Store, snapshot: seq<string>, numberReply: NumberReply, blockReply: BlockReply): (t: Tick)
    ensures snapshot == [] ==> t == Tick(s, [], [])
    ensures snapshot != [] ==> t.calls == FetchLatestBlock(numberReply, blockReply).calls
    ensures snapshot != [] ==> t.errors == FetchLatestBlock(numberReply, blockReply).errors
  {
    if snapshot == [] then Tick(s, [], [])
    else
      var fetch := FetchLatestBlock(numberReply, blockReply);
      Tick(ObserveAll(s, snapshot, Items(fetch.txs)), fetch.calls, fetch.errors)
  }

  /** When the block fetch fails the transaction list is nil and no log
      changes; the error still reaches the channel. */
  lemma FailedBlockFetchObservesNothing(s: Subscriptions.Store, snapshot: seq<string>, numberReply: NumberReply, blockReply: BlockReply, b: string)
    requires Distinct(snapshot)
    requires blockReply.Err?
    ensures var t := ObserverTick(s, snapshot, numberReply, blockReply);
      && MultiMaps.Get(t.store.observed, b) == MultiMaps.Get(s.observed, b)
      && t.store.subs == s.subs
      && (snapshot != [] ==> Upstream(blockReply.error) in t.errors)
  {
    if snapshot != [] {
      var fetch := FetchLatestBlock(numberReply, blockReply);
      ObserveAllEffect(s, snapshot, [], b);
      ObserveBlockNothing(s, snapshot, b);
      assert fetch.errors[|fetch.errors| - 1] == Upstream(blockReply.error);
    }
  }

  /** With an empty block the outer loop changes no log. */
  lemma {:induction false} ObserveBlockNothing(s: Subscriptions.Store, addrs: seq<string>, b: string)
    ensures MultiMaps.Get(ObserveAll(s, addrs, []).observed, b) == MultiMaps.Get(s.observed, b)
    decreases |addrs|
  {
    if addrs != [] {
      ObserveBlockNothing(ObserveBlock(s, addrs[0], []), addrs[1..], b);
    }
  }

  /** `ListenForNewTransactions`, one iteration: takes the snapshot of the
      subscriber set (in an unspecified order) and runs the tick. Every
      subscriber's log grows by the block's transactions that involve it, in
      block order, each once; other logs and the subscriber set are kept;
      with no subscriber nothing is fetched and nothing changes. */
  method ListenForNewTransactions(s: Subscriptions.Store, numberReply: NumberReply, blockReply: BlockReply) returns (t: Tick)
    ensures s.subs.Keys == {} ==> t == Tick(s, [], [])
    ensures s.subs.Keys != {} ==> t.calls == FetchLatestBlock(numberReply, blockReply).calls
    ensures t.store.subs == s.subs
    ensures forall b ::
              ObservedLog(t.store, b)
              == ObservedLog(s, b) + (if b in s.subs then Matching.Involving(Items(FetchLatestBlock(numberReply, blockReply).txs), b) else [])
  {
    var snapshot := GetAllSubscriptions(s);
    t := ObserverTick(s, snapshot, numberReply, blockReply);
    var txs := Items(FetchLatestBlock(numberReply, blockReply).txs);
    forall b
      ensures ObservedLog(t.store, b) == ObservedLog(s, b) + (if b in s.subs then Matching.Involving(txs, b) else [])
    {
      ObserveAllEffect(s, snapshot, txs, b);
    }
    if snapshot != [] {
      ObserveAllEffect(s, snapshot, txs, "");
    } else {
      assert |s.subs.Keys| == 0;
    }
  }

  /** Subscribing and then ticking over a block that carries a transaction
      sent to a case variant of the address records that transaction in the
      subscriber's log. */
  method SubscribeThenObserve(s: Subscriptions.Store, address: string, tx: Tx, numberReply: NumberReply)
    returns (log: Slice<Tx>)
    requires Ascii.ToLower(tx.to) == Ascii.ToLower(address)
    ensures Items(log) == ObservedLog(s, Ascii.ToLower(address)) + [tx]
  {
    var (subscribed, _) := BlockParser.Subscribe(s, address);
    var t := ListenForNewTransactions(subscribed, numberReply, Ok(Of([tx])));
    Matching.InvolvingOne(tx, Ascii.ToLower(address));
    log := BlockParser.GetTransactionsPerSubscriber(t.store, address);
  }
}

=== FILE: block_parser.dfy ===
/** The SDK's block parser (pkg/sdk/block_parser.go). The two JSON-RPC
    calls it makes are not performed here: each operation receives what the
    node answered (or how the call failed) as a parameter, and reports which
    calls it issued. */
module BlockParser {
  import opened Results
  import opened Numbers
  import opened Blocks
  import Ascii
  import TxHistory
  import Subscriptions
  import Matching
  import opened JsonRpcErrors

  /** An error the SDK hands back: one from the JSON-RPC layer, or the
      `strconv.NumError` of a block number that does not parse. */
  datatype SdkError = Upstream(cause: CallError) | BadNumber(numError: NumError)

  /** The JSON-RPC calls the parser issues. */
  datatype RpcCall =
    | BlockNumberCall
    | BlockByNumberCall(blockHex: string, fullTransactions: bool)

  /** The answer to `eth_blockNumber`: the decoded response, or the failure. */
  type NumberReply = Result<RPCResponse, CallError>

  /** The answer to `eth_getBlockByNumber` as `CallFor` decodes it into a
      block: its transaction list (nil when the JSON had none), or the failure. */
  type BlockReply = Result<Slice<Tx>, CallError>

  /** How `%v` prints the response's `result` member: a JSON string as its
      text, an absent or null member as "<nil>". */
  function Render(result: Option<string>): string {
    match result
    case None => "<nil>"
    case Some(text) => text
  }

  /** Go's `(int, error)` pair returned by `GetCurrentBlock`. */
  datatype CurrentBlock = CurrentBlock(number: Int64, err: Option<SdkError>)

  /** `GetCurrentBlock`: the hex block number the node reported, or -1 with
      the error when the call fails or its result does not parse. */
  function GetCurrentBlock(reply: NumberReply): (r: CurrentBlock)
    ensures r.err.Some? ==> r.number == -1
    ensures reply.Err? ==> r.err == Some(Upstream(reply.error))
    ensures r.err.None? <==> reply.Ok? && HexToInt(Render(reply.value.result)).Ok?
    ensures r.err.None? ==> HexToInt(Render(reply.value.result)) == Ok(r.number)
    ensures reply.Ok? && HexToInt(Render(reply.value.result)).Err? ==>
      r.err == Some(BadNumber(HexToInt(Render(reply.value.result)).error))
  {
    match reply
    case Err(e) => CurrentBlock(-1, Some(Upstream(e)))
    case Ok(resp) =>
      match HexToInt(Render(resp.result))
      case Err(e) => CurrentBlock(-1, Some(BadNumber(e)))
      case Ok(n) => CurrentBlock(n, None)
  }

  /** A node that reports a block number written by `IntToHex` is understood:
      the parser reads back exactly that number. */
  lemma CurrentBlockReadsHex(resp: RPCResponse, n: Int64)
    requires resp.result == Some(IntToHex(n))
    ensures GetCurrentBlock(Ok(resp)) == CurrentBlock(n, None)
  {
    HexRoundTrip(n);
  }

  /** A response without a result (for instance one that carries only an RPC
      error object, which `Call` lets through below status 400) renders as
      "<nil>" and fails as a syntax error. */
  lemma MissingResultIsSyntaxError(resp: RPCResponse)
    requires resp.result == None
    ensures GetCurrentBlock(Ok(resp)) == CurrentBlock(-1, Some(BadNumber(ErrSyntax)))
  {
    HexToIntSpec("<nil>");
    assert !("0x" <= "<nil>") by {
      assert "<nil>"[0] != "0x"[0];
    }
    assert !IsHexInt64("<nil>") by {
      assert !DigitValue('<').Some?;
      assert !HasSign("<nil>");
    }
  }

  /** Go's `([]Transaction, error)` pair returned by `GetBlockTransactions`,
      together with the call it issued. */
  datatype BlockTransactions = BlockTransactions(call: RpcCall, txs: Slice<Tx>, err: Option<SdkError>)

  /** `GetBlockTransactions`: asks for block `blockNum`, in hex, with full
      transaction objects; nil and the error when the call fails. */
  function GetBlockTransactions(blockNum: Int64, reply: BlockReply): (r: BlockTransactions)
    ensures r.call.BlockByNumberCall? && r.call.fullTransactions
    ensures r.call.blockHex == IntToHex(blockNum)
    ensures r.err.Some? <==> reply.Err?
    ensures r.err.Some? ==> r.txs == Nil && r.err == Some(Upstream(reply.error))
    ensures reply.Ok? ==> r.txs == reply.value
  {
    var call := BlockByNumberCall(IntToHex(blockNum), true);
    match reply
    case Err(e) => BlockTransactions(call, Nil, Some(Upstream(e)))
    case Ok(txs) => BlockTransactions(call, txs, None)
  }

  /** The block requested is the block asked for: the hex sent to the node
      reads back as `blockNum`. */
  lemma BlockCallNamesTheBlock(blockNum: Int64, reply: BlockReply)
    ensures HexToInt(GetBlockTransactions(blockNum, reply).call.blockHex) == Ok(blockNum)
  {
    HexRoundTrip(blockNum);
  }

  /** `Subscribe`: stores the lower-cased address and always reports true. */
  function Subscribe(s: Subscriptions.Store, address: string): (r: (Subscriptions.Store, bool))
    ensures r.1
    ensures r.0.subs.Keys == s.subs.Keys + {Ascii.ToLower(address)}
    ensures r.0.observed == s.observed
    ensures Subscriptions.Valid(s) ==> Subscriptions.Valid(r.0)
  {
    (Subscriptions.InsertSubscriberAddress(s, Ascii.ToLower(address)), true)
  }

  /** Every address `Subscribe` ever stores is lower case. */
  predicate LowerCaseKeys(s: Subscriptions.Store) {
    forall a :: a in s.subs ==> Ascii.IsLowerCase(a)
  }

  /** Subscribing keeps the subscriber set lower case, and case variants of
      an address subscribe the same key. */
  lemma SubscribeNormalises(s: Subscriptions.Store, address: string, variant: string)
    requires Ascii.ToLower(variant) == Ascii.ToLower(address)
    ensures LowerCaseKeys(s) ==> LowerCaseKeys(Subscribe(s, address).0)
    ensures Subscribe(s, variant) == Subscribe(s, address)
    ensures Subscribe(s, Ascii.ToLower(address)) == Subscribe(s, address)
  {
    Ascii.ToLowerIsLowerCase(address);
    Ascii.ToLowerIdempotent(address);
  }

  /** `GetTransactionsPerSubscriber`: the observed log of the lower-cased
      address, never nil. */
  function GetTransactionsPerSubscriber(s: Subscriptions.Store, address: string): (r: Slice<Tx>)
    ensures r.Of?
    ensures Items(r) == Subscriptions.ObservedLog(s, Ascii.ToLower(address))
  {
    Subscriptions.GetObservedTransactionsPerAddress(s, Ascii.ToLower(address))
  }

  /** Case variants of an address, including its lower-case form, see the
      same log. */
  lemma SubscriberLookupIgnoresCase(s: Subscriptions.Store, address: string)
    ensures GetTransactionsPerSubscriber(s, Ascii.ToLower(address)) == GetTransactionsPerSubscriber(s, address)
  {
    Ascii.ToLowerIdempotent(address);
  }

  // ---------------------------------------------------------------------
  // The block-range scan

  /** The lowest loop index of the scan: the stored watermark when it is
      positive, else `latest - blockRange` computed in int64 (no clamping
      at 0). */
  function ScanFloor(latest: Int64, blockRange: Int64, watermark: Int64): Int64 {
    if watermark > 0 then watermark else Wrap64(latest - blockRange)
  }

  /** How many times `for i := latest; i >= floor; i--` runs its body. */
  function Iterations(latest: Int64, floor: Int64): nat {
    if latest >= floor then latest - floor + 1 else 0
  }

  /** The scan loop as written: every pass re-examines the same transactions
      of the latest block and inserts the matches under `latest`; the index
      is decremented in int64. With a floor of MinInt64 the condition never
      fails, so that floor is excluded. */
  function ScanLoop(s: TxHistory.Store, address: string, latest: Int64, txs: seq<Tx>, i: Int64, floor: Int64): TxHistory.Store
    requires floor != MinInt64
    decreases if i >= floor then i - floor + 1 else 0
  {
    if i >= floor then ScanLoop(Matching.RecordMatches(s, address, latest, txs), address, latest, txs, Wrap64(i - 1), floor)
    else s
  }

  /** The inner loop run `k` times in a row. */
  function Rescan(s: TxHistory.Store, address: string, latest: Int64, txs: seq<Tx>, k: nat): TxHistory.Store
    decreases k
  {
    if k == 0 then s else Rescan(Matching.RecordMatches(s, address, latest, txs), address, latest, txs, k - 1)
  }

  /** `xs` repeated `k` times. */
  function Copies<T>(xs: seq<T>, k: nat): (r: seq<T>)
    ensures |r| == k * |xs|
  {
    if k == 0 then [] else xs + Copies(xs, k - 1)
  }

  /** The loop runs the inner loop `max(0, latest - floor + 1)` times. */
  lemma {:induction false} ScanLoopCount(s: TxHistory.Store, address: string, latest: Int64, txs: seq<Tx>, i: Int64, floor: Int64)
    requires floor != MinInt64
    ensures ScanLoop(s, address, latest, txs, i, floor) == Rescan(s, address, latest, txs, Iterations(i, floor))
    decreases if i >= floor then i - floor + 1 else 0
  {
    if i >= floor {
      ScanLoopCount(Matching.RecordMatches(s, address, latest, txs), address, latest, txs, Wrap64(i - 1), floor);
    }
  }

  /** `k` passes append each inbound match `k` times to the inbound ledger
      and each outbound match `k` times to the outbound one, leave a ledger
      without matches (nil or not) as it was, and move the watermark to
      `latest` exactly when there was a pass and a match. */
  lemma {:induction false} RescanEffect(s: TxHistory.Store, address: string, latest: Int64, txs: seq<Tx>, k: nat)
    ensures var r := Rescan(s, address, latest, txs, k);
      && Items(TxHistory.GetInboundTransactionsPerAddress(r, address))
         == Items(TxHistory.GetInboundTransactionsPerAddress(s, address)) + Copies(Matching.Filed(txs, address, Matching.Inbound), k)
      && Items(TxHistory.GetOutboundTransactionsPerAddress(r, address))
         == Items(TxHistory.GetOutboundTransactionsPerAddress(s, address)) + Copies(Matching.Filed(txs, address, Matching.Outbound), k)
      && (Matching.Filed(txs, address, Matching.Inbound) == [] ==>
            TxHistory.GetInboundTransactionsPerAddress(r, address) == TxHistory.GetInboundTransactionsPerAddress(s, address))
      && (Matching.Filed(txs, address, Matching.Outbound) == [] ==>
            TxHistory.GetOutboundTransactionsPerAddress(r, address) == TxHistory.GetOutboundTransactionsPerAddress(s, address))
      && TxHistory.GetLatestBlockNumberPerAddress(r, address)
         == (if k > 0 && Matching.HasMatch(txs, address) then latest else TxHistory.GetLatestBlockNumberPerAddress(s, address))
    decreases k
  {
    if k > 0 {
      var s1 := Matching.RecordMatches(s, address, latest, txs);
      Matching.RecordMatchesRecords(s, address, latest, txs);
      RescanEffect(s1, address, latest, txs, k - 1);
    }
  }

  /** The passes touch no other address. */
  lemma {:induction false} RescanFrame(s: TxHistory.Store, address: string, latest: Int64, txs: seq<Tx>, k: nat, other: string)
    requires other != address
    ensures TxHistory.AgreeAt(Rescan(s, address, latest, txs, k), s, other)
    decreases k
  {
    if k > 0 {
      Matching.RecordMatchesFrame(s, address, latest, txs, other);
      RescanFrame(Matching.RecordMatches(s, address, latest, txs), address, latest, txs, k - 1, other);
    }
  }

  /** Go's `([]Transaction, error)` pair returned by the range scan, with
      the repository afterwards and the calls issued. */
  datatype RangeScan = RangeScan(store: TxHistory.Store, txs: Slice<Tx>, err: Option<SdkError>, calls: seq<RpcCall>)

  /** The scan loop ends: it can only spin forever when both fetches succeed
      and the floor is MinInt64. */
  predicate ScanTerminates(s: TxHistory.Store, address: string, blockRange: Int64, numberReply: NumberReply, blockReply: BlockReply) {
    var current := GetCurrentBlock(numberReply);
    current.err.None? && blockReply.Ok? ==>
      ScanFloor(current.number, blockRange,
                TxHistory.GetLatestBlockNumberPerAddress(s, Ascii.ToLower(address))) != MinInt64
  }

  /** `GetTransactionsForBlockRange`. On a failed fetch the error is returned
      with a nil list and the repository untouched (and after a failed
      number fetch the block is never asked for). Otherwise the lower-cased
      address's matches in the latest block are recorded once per loop pass
      and the whole accumulated ledger is returned. */
  function GetTransactionsForBlockRange(s: TxHistory.Store, address: string, blockRange: Int64,
                                        numberReply: NumberReply, blockReply: BlockReply): (r: RangeScan)
    requires ScanTerminates(s, address, blockRange, numberReply, blockReply)
    ensures r.err.Some? <==> GetCurrentBlock(numberReply).err.Some? || blockReply.Err?
    ensures r.err.Some? ==> r.store == s && r.txs == Nil
    ensures GetCurrentBlock(numberReply).err.Some? ==> r.err == GetCurrentBlock(numberReply).err
    ensures GetCurrentBlock(numberReply).err.None? && blockReply.Err? ==> r.err == Some(Upstream(blockReply.error))
    ensures r.err.None? ==> r.txs == TxHistory.GetAllTransactionsPerAddress(r.store, Ascii.ToLower(address))
    ensures GetCurrentBlock(numberReply).err.Some? ==> r.calls == [BlockNumberCall]
    ensures GetCurrentBlock(numberReply).err.None? ==>
      r.calls == [BlockNumberCall, BlockByNumberCall(IntToHex(GetCurrentBlock(numberReply).number), true)]
  {
    var current := GetCurrentBlock(numberReply);
    if current.err.Some? then RangeScan(s, Nil, current.err, [BlockNumberCall])
    else
      var latest := current.number;
      var block := GetBlockTransactions(latest, blockReply);
      if block.err.Some? then RangeScan(s, Nil, block.err, [BlockNumberCall, block.call])
      else
        var a := Ascii.ToLower(address);
        var floor := ScanFloor(latest, blockRange, TxHistory.GetLatestBlockNumberPerAddress(s, a));
        var store := ScanLoop(s, a, latest, Items(block.txs), latest, floor);
        RangeScan(store, TxHistory.GetAllTransactionsPerAddress(store, a), None, [BlockNumberCall, block.call])
  }

  /** The block-number fetch succeeds. */
  predicate NumberFetched(numberReply: NumberReply) {
    GetCurrentBlock(numberReply).err.None?
  }

  /** The number of loop passes of a successful scan. */
  function PassCount(s: TxHistory.Store, address: string, blockRange: Int64, numberReply: NumberReply): nat {
    var latest := GetCurrentBlock(numberReply).number;
    Iterations(latest, ScanFloor(latest, blockRange, TxHistory.GetLatestBlockNumberPerAddress(s, Ascii.ToLower(address))))
  }

  /** A successful scan of `block` appends its inbound matches (`to`
      matches, self-transfers included), in block order, to the inbound
      ledger once per loop pass. */
  lemma RangeScanInbound(s: TxHistory.Store, address: string, blockRange: Int64, numberReply: NumberReply, block: Slice<Tx>)
    requires ScanTerminates(s, address, blockRange, numberReply, Ok(block))
    requires NumberFetched(numberReply)
    ensures var r := GetTransactionsForBlockRange(s, address, blockRange, numberReply, Ok(block));
            var a := Ascii.ToLower(address);
            Items(TxHistory.GetInboundTransactionsPerAddress(r.store, a))
            == Items(TxHistory.GetInboundTransactionsPerAddress(s, a))
               + Copies(Matching.Filed(Items(block), a, Matching.Inbound), PassCount(s, address, blockRange, numberReply))
  {
    var a := Ascii.ToLower(address);
    var latest := GetCurrentBlock(numberReply).number;
    var floor := ScanFloor(latest, blockRange, TxHistory.GetLatestBlockNumberPerAddress(s, a));
    ScanLoopCount(s, a, latest, Items(block), latest, floor);
    RescanEffect(s, a, latest, Items(block), Iterations(latest, floor));
  }

  /** A successful scan of `block` appends its outbound matches (`from`
      matches that are not also `to` matches), in block order, to the
      outbound ledger once per loop pass. */
  lemma RangeScanOutbound(s: TxHistory.Store, address: string, blockRange: Int64, numberReply: NumberReply, block: Slice<Tx>)
    requires ScanTerminates(s, address, blockRange, numberReply, Ok(block))
    requires NumberFetched(numberReply)
    ensures var r := GetTransactionsForBlockRange(s, address, blockRange, numberReply, Ok(block));
            var a := Ascii.ToLower(address);
            Items(TxHistory.GetOutboundTransactionsPerAddress(r.store, a))
            == Items(TxHistory.GetOutboundTransactionsPerAddress(s, a))
               + Copies(Matching.Filed(Items(block), a, Matching.Outbound), PassCount(s, address, blockRange, numberReply))
  {
    var a := Ascii.ToLower(address);
    var latest := GetCurrentBlock(numberReply).number;
    var floor := ScanFloor(latest, blockRange, TxHistory.GetLatestBlockNumberPerAddress(s, a));
    ScanLoopCount(s, a, latest, Items(block), latest, floor);
    RescanEffect(s, a, latest, Items(block), Iterations(latest, floor));
  }

  /** The ledger never shrinks: the old ledgers are prefixes of the new ones
      and the returned ledger is at least as long as the old one. */
  lemma RangeScanGrows(s: TxHistory.Store, address: string, blockRange: Int64, numberReply: NumberReply, block: Slice<Tx>)
    requires ScanTerminates(s, address, blockRange, numberReply, Ok(block))
    requires NumberFetched(numberReply)
    ensures var r := GetTransactionsForBlockRange(s, address, blockRange, numberReply, Ok(block));
            var a := Ascii.ToLower(address);
      && Items(TxHistory.GetInboundTransactionsPerAddress(s, a)) <= Items(TxHistory.GetInboundTransactionsPerAddress(r.store, a))
      && Items(TxHistory.GetOutboundTransactionsPerAddress(s, a)) <= Items(TxHistory.GetOutboundTransactionsPerAddress(r.store, a))
      && |Items(TxHistory.GetAllTransactionsPerAddress(s, a))| <= |Items(r.txs)|
  {
    var a := Ascii.ToLower(address);
    RangeScanInbound(s, address, blockRange, numberReply, block);
    RangeScanOutbound(s, address, blockRange, numberReply, block);
    TxHistory.LedgerLength(s, a);
  }

  /** After a successful scan the watermark is `latest` when a pass found a
      match, and unchanged otherwise. */
  lemma RangeScanWatermark(s: TxHistory.Store, address: string, blockRange: Int64, numberReply: NumberReply, block: Slice<Tx>)
    requires ScanTerminates(s, address, blockRange, numberReply, Ok(block))
    requires NumberFetched(numberReply)
    ensures var r := GetTransactionsForBlockRange(s, address, blockRange, numberReply, Ok(block));
            var a := Ascii.ToLower(address);
            TxHistory.GetLatestBlockNumberPerAddress(r.store, a)
            == (if PassCount(s, address, blockRange, numberReply) > 0 && Matching.HasMatch(Items(block), a)
                then GetCurrentBlock(numberReply).number
                else TxHistory.GetLatestBlockNumberPerAddress(s, a))
  {
    var a := Ascii.ToLower(address);
    var latest := GetCurrentBlock(numberReply).number;
    var floor := ScanFloor(latest, blockRange, TxHistory.GetLatestBlockNumberPerAddress(s, a));
    ScanLoopCount(s, a, latest, Items(block), latest, floor);
    RescanEffect(s, a, latest, Items(block), Iterations(latest, floor));
  }

  /** A scan for one address leaves every other address's ledgers and
      watermark as they were. */
  lemma RangeScanFrame(s: TxHistory.Store, address: string, blockRange: Int64, numberReply: NumberReply, blockReply: BlockReply, other: string)
    requires ScanTerminates(s, address, blockRange, numberReply, blockReply)
    requires other != Ascii.ToLower(address)
    ensures TxHistory.AgreeAt(GetTransactionsForBlockRange(s, address, blockRange, numberReply, blockReply).store, s, other)
  {
    var a := Ascii.ToLower(address);
    var current := GetCurrentBlock(numberReply);
    if current.err.None? && blockReply.Ok? {
      var latest := current.number;
      var floor := ScanFloor(latest, blockRange, TxHistory.GetLatestBlockNumberPerAddress(s, a));
      ScanLoopCount(s, a, latest, Items(blockReply.value), latest, floor);
      RescanFrame(s, a, latest, Items(blockReply.value), Iterations(latest, floor), other);
    }
  }

  /** A successful scan never lowers a positive watermark: the loop only
      runs, and so only writes `latest`, when `latest` is at least the floor,
      which is that watermark. A node reporting an older block makes no pass. */
  lemma RangeScanKeepsWatermark(s: TxHistory.Store, address: string, blockRange: Int64, numberReply: NumberReply, block: Slice<Tx>)
    requires ScanTerminates(s, address, blockRange, numberReply, Ok(block))
    requires NumberFetched(numberReply)
    requires TxHistory.GetLatestBlockNumberPerAddress(s, Ascii.ToLower(address)) > 0
    ensures var r := GetTransactionsForBlockRange(s, address, blockRange, numberReply, Ok(block));
            var a := Ascii.ToLower(address);
            TxHistory.GetLatestBlockNumberPerAddress(r.store, a) >= TxHistory.GetLatestBlockNumberPerAddress(s, a)
  {
    RangeScanWatermark(s, address, blockRange, numberReply, block);
  }

  /** A block with nothing for the address changes nothing for it: its
      ledgers stay as they were (nil ones stay nil) and its watermark is not
      moved to `latest`. Other addresses are covered by `RangeScanFrame`. */
  lemma NoMatchLeavesStore(s: TxHistory.Store, address: string, blockRange: Int64, numberReply: NumberReply, block: Slice<Tx>)
    requires ScanTerminates(s, address, blockRange, numberReply, Ok(block))
    requires NumberFetched(numberReply)
    requires !Matching.HasMatch(Items(block), Ascii.ToLower(address))
    ensures TxHistory.AgreeAt(GetTransactionsForBlockRange(s, address, blockRange, numberReply, Ok(block)).store, s, Ascii.ToLower(address))
  {
    var a := Ascii.ToLower(address);
    var latest := GetCurrentBlock(numberReply).number;
    var floor := ScanFloor(latest, blockRange, TxHistory.GetLatestBlockNumberPerAddress(s, a));
    ScanLoopCount(s, a, latest, Items(block), latest, floor);
    RescanEffect(s, a, latest, Items(block), Iterations(latest, floor));
  }

  /** Without a positive watermark the scan makes `blockRange + 1` passes,
      even when that reaches below block 0 (the floor is not clamped). */
  lemma FirstScanPasses(latest: Int64, blockRange: Int64, watermark: Int64)
    requires watermark <= 0 && blockRange >= 0
    requires MinInt64 < latest - blockRange
    ensures Iterations(latest, ScanFloor(latest, blockRange, watermark)) == blockRange + 1
  {
  }

  /** Asking again on an unchanged chain after a scan that matched resumes
      at the watermark, which is `latest` itself, so the latest block is
      scanned once more and its matches are appended a second time: the
      returned ledger grows by the number of matches. */
  lemma RepeatScanDuplicates(s: TxHistory.Store, address: string, blockRange: Int64, numberReply: NumberReply, block: Slice<Tx>)
    requires ScanTerminates(s, address, blockRange, numberReply, Ok(block))
    requires NumberFetched(numberReply)
    requires GetCurrentBlock(numberReply).number > 0
    requires PassCount(s, address, blockRange, numberReply) > 0
    requires Matching.HasMatch(Items(block), Ascii.ToLower(address))
    ensures var first := GetTransactionsForBlockRange(s, address, blockRange, numberReply, Ok(block));
            && ScanTerminates(first.store, address, blockRange, numberReply, Ok(block))
            && PassCount(first.store, address, blockRange, numberReply) == 1
            && var second := GetTransactionsForBlockRange(first.store, address, blockRange, numberReply, Ok(block));
               var a := Ascii.ToLower(address);
               |Items(second.txs)| == |Items(first.txs)|
                 + |Matching.Filed(Items(block), a, Matching.Inbound)| + |Matching.Filed(Items(block), a, Matching.Outbound)|
               && |Items(second.txs)| > |Items(first.txs)|
  {
    var a := Ascii.ToLower(address);
    var first := GetTransactionsForBlockRange(s, address, blockRange, numberReply, Ok(block));
    RangeScanWatermark(s, address, blockRange, numberReply, block);
    assert ScanTerminates(first.store, address, blockRange, numberReply, Ok(block));
    var second := GetTransactionsForBlockRange(first.store, address, blockRange, numberReply, Ok(block));
    RangeScanInbound(first.store, address, blockRange, numberReply, block);
    RangeScanOutbound(first.store, address, blockRange, numberReply, block);
    TxHistory.LedgerLength(first.store, a);
    TxHistory.LedgerLength(second.store, a);
  }
}

=== FILE: blocks.dfy ===
/** The block and transaction records the node returns (pkg/blocks). The index
    reads only a transaction's hash and its two addresses; the remaining JSON
    fields are carried along unread and are not modelled. */
module Blocks {

  /** A transaction. `to` is the empty string for a contract creation, as JSON
      `null` decodes into a Go string. */
  datatype Tx = Tx(hash: string, from: string, to: string)
}

=== FILE: httpx_options.dfy ===
/** Configuration of the HTTP client and of single requests
    (pkg/transport/client/httpx/options.go). Go's option closures are
    modelled by one constructor per `With*` function; functions and readers
    the configuration holds are opaque identities. */
module HttpxOptions {
  import opened Results

  const DefaultRequestTimeout: int := 10
  const DefaultTLSHandshakeTimeout: int := 5
  const DefaultDialerTimeout: int := 5

  /** A redirect policy: the default one allows every redirect. */
  datatype RedirectPolicy = FollowAll | CustomPolicy(id: nat)

  datatype ClientConfig = ClientConfig(
    requestTimeout: int,
    tlsHandshakeTimeout: int,
    dialerTimeout: int,
    redirectPolicy: RedirectPolicy)

  datatype ClientOption =
    | WithCustomTLSHandshakeTimeout(tlsTimeout: int)
    | WithCustomRequestTimeout(requestTimeout: int)
    | WithCustomDialerTimeout(dialerTimeout: int)
    | WithCustomRedirectPolicy(policy: RedirectPolicy)

  /** `newHTTPClientDefaultConfig`: timeouts of 10, 5 and 5 seconds; every
      redirect is followed. */
  function DefaultClientConfig(): (c: ClientConfig)
    ensures c.requestTimeout == 10 && c.tlsHandshakeTimeout == 5 && c.dialerTimeout == 5
    ensures c.redirectPolicy == FollowAll
  {
    ClientConfig(DefaultRequestTimeout, DefaultTLSHandshakeTimeout, DefaultDialerTimeout, FollowAll)
  }

  /** The client settings an option can touch. */
  datatype ClientField = RequestTimeout | TLSHandshakeTimeout | DialerTimeout | Redirects

  /** The field an option sets. */
  function FieldOf(opt: ClientOption): ClientField {
    match opt
    case WithCustomTLSHandshakeTimeout(_) => TLSHandshakeTimeout
    case WithCustomRequestTimeout(_) => RequestTimeout
    case WithCustomDialerTimeout(_) => DialerTimeout
    case WithCustomRedirectPolicy(_) => Redirects
  }

  /** Whether two configurations agree on a field. */
  predicate SameField(c: ClientConfig, d: ClientConfig, f: ClientField) {
    match f
    case RequestTimeout => c.requestTimeout == d.requestTimeout
    case TLSHandshakeTimeout => c.tlsHandshakeTimeout == d.tlsHandshakeTimeout
    case DialerTimeout => c.dialerTimeout == d.dialerTimeout
    case Redirects => c.redirectPolicy == d.redirectPolicy
  }

  /** One client option: it sets its own field to its value and no other. */
  function ApplyClientOption(c: ClientConfig, opt: ClientOption): (r: ClientConfig)
    ensures forall f :: f != FieldOf(opt) ==> SameField(r, c, f)
    ensures opt.WithCustomTLSHandshakeTimeout? ==> r.tlsHandshakeTimeout == opt.tlsTimeout
    ensures opt.WithCustomRequestTimeout? ==> r.requestTimeout == opt.requestTimeout
    ensures opt.WithCustomDialerTimeout? ==> r.dialerTimeout == opt.dialerTimeout
    ensures opt.WithCustomRedirectPolicy? ==> r.redirectPolicy == opt.policy
  {
    match opt
    case WithCustomTLSHandshakeTimeout(t) => c.(tlsHandshakeTimeout := t)
    case WithCustomRequestTimeout(t) => c.(requestTimeout := t)
    case WithCustomDialerTimeout(t) => c.(dialerTimeout := t)
    case WithCustomRedirectPolicy(p) => c.(redirectPolicy := p)
  }

  /** What an option leaves in its own field does not depend on the
      configuration it is applied to. */
  lemma OptionSetsItsField(c: ClientConfig, d: ClientConfig, opt: ClientOption)
    ensures SameField(ApplyClientOption(c, opt), ApplyClientOption(d, opt), FieldOf(opt))
  {
  }

  /** `clientConfig.applyOptions`: the options in list order. */
  function ApplyClientOptions(c: ClientConfig, opts: seq<ClientOption>): ClientConfig
    decreases |opts|
  {
    if opts == [] then c else ApplyClientOptions(ApplyClientOption(c, opts[0]), opts[1..])
  }

  /** The last option in the list that touches field `f`, if any. */
  function LastSetting(opts: seq<ClientOption>, f: ClientField): (r: Option<ClientOption>)
    ensures r.Some? ==> FieldOf(r.value) == f
    decreases |opts|
  {
    if opts == [] then None
    else match LastSetting(opts[1..], f)
      case Some(o) => Some(o)
      case None => if FieldOf(opts[0]) == f then Some(opts[0]) else None
  }

  /** Each field of the result is what the last option touching it set, or
      the starting value if no option touches it. */
  lemma {:induction false} LastClientOptionWins(c: ClientConfig, opts: seq<ClientOption>, f: ClientField)
    ensures match LastSetting(opts, f)
            case Some(o) => SameField(ApplyClientOptions(c, opts), ApplyClientOption(c, o), f)
            case None => SameField(ApplyClientOptions(c, opts), c, f)
    decreases |opts|
  {
    if opts != [] {
      var c1 := ApplyClientOption(c, opts[0]);
      LastClientOptionWins(c1, opts[1..], f);
      match LastSetting(opts[1..], f)
      case Some(o) => OptionSetsItsField(c1, c, o);
      case None =>
    }
  }

  // ---------------------------------------------------------------------
  // Request options

  /** An `io.Reader` body, by identity. */
  datatype Reader = Reader(id: nat)

  datatype BasicAuth = BasicAuth(username: string, password: string)

  /** A request configuration. `formParams` is `None` for a nil map. The
      `basicAuth` pointer is never nil: the default allocates it and no option
      replaces it. */
  datatype RequestConfig = RequestConfig(
    queryParams: map<string, string>,
    formParams: Option<map<string, string>>,
    body: Option<Reader>,
    basicAuth: BasicAuth)

  datatype RequestOption =
    | WithRequestBody(body: Option<Reader>)
    | WithQueryParam(key: string, value: string)
    | WithFormParam(key: string, value: string)
    | WithBasicAuth(username: string, password: string)

  /** Writing into a nil map panics in Go. */
  datatype Panic = AssignmentToNilMap

  /** `newHTTPRequestDefaultConfig`: no query parameters, no form map, no
      body, empty credentials. */
  function DefaultRequestConfig(): (c: RequestConfig)
    ensures c.queryParams == map[] && c.formParams.None? && c.body.None?
    ensures c.basicAuth.username == "" && c.basicAuth.password == ""
  {
    RequestConfig(map[], None, None, BasicAuth("", ""))
  }

  /** One request option: each writes its own field only; a form parameter
      written into a nil form map panics. */
  function ApplyRequestOption(c: RequestConfig, opt: RequestOption): (r: Result<RequestConfig, Panic>)
    ensures r.Err? <==> opt.WithFormParam? && c.formParams.None?
    ensures r.Ok? && opt.WithRequestBody? ==> r.value == c.(body := opt.body)
    ensures r.Ok? && opt.WithQueryParam? ==>
      && r.value.queryParams.Keys == c.queryParams.Keys + {opt.key}
      && r.value.queryParams[opt.key] == opt.value
      && (forall k :: k in c.queryParams && k != opt.key ==> r.value.queryParams[k] == c.queryParams[k])
      && r.value.(queryParams := c.queryParams) == c
    ensures r.Ok? && opt.WithFormParam? ==>
      && r.value.formParams.Some?
      && r.value.formParams.value.Keys == c.formParams.value.Keys + {opt.key}
      && r.value.formParams.value[opt.key] == opt.value
      && r.value.(formParams := c.formParams) == c
    ensures r.Ok? && opt.WithBasicAuth? ==> r.value == c.(basicAuth := BasicAuth(opt.username, opt.password))
  {
    match opt
    case WithRequestBody(b) => Ok(c.(body := b))
    case WithQueryParam(k, v) => Ok(c.(queryParams := c.queryParams[k := v]))
    case WithFormParam(k, v) =>
      if c.formParams.None? then Err(AssignmentToNilMap)
      else Ok(c.(formParams := Some(c.formParams.value[k := v])))
    case WithBasicAuth(u, p) => Ok(c.(basicAuth := BasicAuth(u, p)))
  }

  /** `requestConfig.ApplyOptions`: the options in list order; a panic ends it. */
  function ApplyRequestOptions(c: RequestConfig, opts: seq<RequestOption>): Result<RequestConfig, Panic>
    decreases |opts|
  {
    if opts == [] then Ok(c)
    else match ApplyRequestOption(c, opts[0])
      case Err(p) => Err(p)
      case Ok(c1) => ApplyRequestOptions(c1, opts[1..])
  }

  predicate HasFormParam(opts: seq<RequestOption>) {
    exists i :: 0 <= i < |opts| && opts[i].WithFormParam?
  }

  /** Starting from the default configuration, whose form map is nil, the
      options apply without a panic exactly when none is a form parameter. */
  lemma {:induction false} FormParamPanicsOnDefault(c: RequestConfig, opts: seq<RequestOption>)
    requires c.formParams.None?
    ensures ApplyRequestOptions(c, opts).Err? <==> HasFormParam(opts)
    decreases |opts|
  {
    if opts != [] {
      if !opts[0].WithFormParam? {
        var c1 := ApplyRequestOption(c, opts[0]).value;
        FormParamPanicsOnDefault(c1, opts[1..]);
        assert HasFormParam(opts) <==> HasFormParam(opts[1..]) by {
          if HasFormParam(opts) {
            var i :| 0 <= i < |opts| && opts[i].WithFormParam?;
            assert opts[1..][i - 1] == opts[i];
          }
          if HasFormParam(opts[1..]) {
            var i :| 0 <= i < |opts[1..]| && opts[1..][i].WithFormParam?;
            assert opts[i + 1] == opts[1..][i];
          }
        }
      }
    }
  }

  /** The value the last `WithQueryParam` for `key` in the list sets, if any. */
  function LastQueryValue(opts: seq<RequestOption>, key: string): Option<string>
    decreases |opts|
  {
    if opts == [] then None
    else match LastQueryValue(opts[1..], key)
      case Some(v) => Some(v)
      case None => if opts[0].WithQueryParam? && opts[0].key == key then Some(opts[0].value) else None
  }

  /** A query parameter ends up with the value of the last option for its
      key, overwriting earlier ones; with no such option it keeps its start. */
  lemma {:induction false} LastQueryParamWins(c: RequestConfig, opts: seq<RequestOption>, key: string)
    requires ApplyRequestOptions(c, opts).Ok?
    ensures var q := ApplyRequestOptions(c, opts).value.queryParams;
            match LastQueryValue(opts, key)
            case Some(v) => key in q && q[key] == v
            case None => (key in q <==> key in c.queryParams) && (key in q ==> q[key] == c.queryParams[key])
    decreases |opts|
  {
    if opts != [] {
      var c1 := ApplyRequestOption(c, opts[0]).value;
      LastQueryParamWins(c1, opts[1..], key);
    }
  }
}

=== FILE: jsonrpc_errors.dfy ===
/** Errors of the JSON-RPC client (pkg/transport/client/jsonrpc/errors.go):
    the RPC error object, its text, and the decision which error, if any, a
    call reports given what the HTTP exchange produced. */
module JsonRpcErrors {
  import opened Results
  import Numbers

  /** A JSON-RPC error object; its optional `data` member is not modelled. */
  datatype RPCError = RPCError(code: int, message: string)

  /** A decoded JSON-RPC response. `result` is the `%v` rendering of the
      result member, `None` when the member is null or absent. */
  datatype RPCResponse = RPCResponse(jsonrpc: string, result: Option<string>, error: Option<RPCError>, id: int)

  /** Why a call failed, as the wrapped message says. */
  datatype Reason =
    | UndecodableBody
    | MissingResponse
    | ErrorInResponse(rpcError: RPCError)
    | NoErrorInResponse

  /** The errors a JSON-RPC call can return. `HTTPError` is the status-coded
      `httpx.Error`; `PlainError` is the unwrapped `fmt.Errorf` value. The last
      three come from the client's transport and result decoding, which are not
      part of this model, and only appear as inputs. */
  datatype CallError =
    | HTTPError(code: int, reason: Reason)
    | PlainError(status: int, reason: Reason)
    | TransportFailure
    | ErrorReply(rpcError: RPCError)
    | ResultUndecodable

  const ErrorStatus: int := 400

  /** HandleResponseError: a decoding failure is reported first, then a
      missing response, then an HTTP error status; a response that arrived
      with a status below 400 is not an error here, even if it carries an RPC
      error object (the caller deals with that). Status-coded errors carry the
      status exactly when it is 400 or more. */
  function HandleResponseError(decodeFailed: bool, status: int, response: Option<RPCResponse>): (r: Option<CallError>)
    ensures r.None? <==> !decodeFailed && response.Some? && status < ErrorStatus
    ensures r.Some? ==> (r.value.HTTPError? <==> status >= ErrorStatus)
    ensures r.Some? ==> r.value.HTTPError? || r.value.PlainError?
    ensures r.Some? && r.value.HTTPError? ==> r.value.code == status
    ensures r.Some? && r.value.PlainError? ==> r.value.status == status
    ensures decodeFailed ==> r.Some? && r.value.reason == UndecodableBody
    ensures !decodeFailed && response.None? ==> r.Some? && r.value.reason == MissingResponse
    ensures !decodeFailed && response.Some? && status >= ErrorStatus ==>
      r.Some? && r.value.reason == (if response.value.error.Some? then ErrorInResponse(response.value.error.value) else NoErrorInResponse)
  {
    if decodeFailed then
      if status >= ErrorStatus then Some(HTTPError(status, UndecodableBody)) else Some(PlainError(status, UndecodableBody))
    else if response.None? then
      if status >= ErrorStatus then Some(HTTPError(status, MissingResponse)) else Some(PlainError(status, MissingResponse))
    else if status >= ErrorStatus then
      match response.value.error
      case Some(e) => Some(HTTPError(status, ErrorInResponse(e)))
      case None => Some(HTTPError(status, NoErrorInResponse))
    else None
  }

  /** The position of the first ':' in `t`, or |t| if there is none. */
  function IndexOfColon(t: string): (i: nat)
    ensures i <= |t|
    ensures i < |t| ==> t[i] == ':'
    ensures forall k :: 0 <= k < i ==> t[k] != ':'
  {
    if t == [] then 0 else if t[0] == ':' then 0 else 1 + IndexOfColon(t[1..])
  }

  /** A reader for RPC error texts: the code before the first ": ", the
      message after it. */
  function SplitErrorMessage(t: string): Option<(int, string)> {
    var i := IndexOfColon(t);
    if i + 1 < |t| && t[i + 1] == ' ' then
      match Numbers.ParseDecimal(t[..i])
      case Some(code) => Some((code, t[i + 2..]))
      case None => None
    else None
  }

  /** Where the parts of `code + ": " + message` sit when `code` has no colon. */
  lemma ErrorTextLayout(code: string, message: string)
    requires code != [] && ':' !in code
    ensures var t := code + ": " + message;
      && IndexOfColon(t) == |code|
      && t[..|code|] == code
      && t[|code|..] == ": " + message
      && t[|code| + 2..] == message
      && t[0] == code[0]
      && t[1..|code|] == code[1..]
  {
    var t := code + ": " + message;
    assert t[|code|] == ':';
    assert forall k :: 0 <= k < |code| ==> t[k] == code[k];
    assert t[..|code|] == code;
  }

  /** `RPCError.Error`: the decimal code, ": ", then the message; the reader
      recovers both parts, whatever the message contains. */
  function ErrorMessage(e: RPCError): (t: string)
    ensures SplitErrorMessage(t) == Some((e.code, e.message))
    ensures var n := IndexOfColon(t);
      && 0 < n < |t|
      && t[n..] == ": " + e.message
      && (e.code < 0 <==> t[0] == '-')
      && var digits := if e.code < 0 then t[1..n] else t[..n];
         Numbers.IsCanonical(digits, 10) && Numbers.Horner(digits, 0, 10) == Numbers.Abs(e.code)
  {
    var code := Numbers.Itoa(e.code);
    Numbers.ItoaHasNoColon(e.code);
    Numbers.ItoaRoundTrip(e.code);
    ErrorTextLayout(code, e.message);
    code + ": " + e.message
  }
}

=== FILE: jsonrpc_options.dfy ===
/** Configuration of the JSON-RPC client (pkg/transport/client/jsonrpc/options.go).
    Go's option closures are modelled by the two option constructors. */
module JsonRpcOptions {
  import opened Results

  datatype ClientConfig = ClientConfig(allowUnknownFields: bool, defaultRequestID: int)

  datatype ClientOption =
    | WithAllowUnknownFields(allowUnknownFields: bool)
    | WithDefaultRequestID(defaultRequestID: int)

  /** `newRPCClientDefaultConfig`. */
  function DefaultConfig(): (c: ClientConfig)
    ensures c.allowUnknownFields && c.defaultRequestID == 0
  {
    ClientConfig(true, 0)
  }

  /** One option: each changes only its own field. */
  function Apply(c: ClientConfig, opt: ClientOption): (r: ClientConfig)
    ensures opt.WithAllowUnknownFields? ==>
      r.allowUnknownFields == opt.allowUnknownFields && r.defaultRequestID == c.defaultRequestID
    ensures opt.WithDefaultRequestID? ==>
      r.defaultRequestID == opt.defaultRequestID && r.allowUnknownFields == c.allowUnknownFields
  {
    match opt
    case WithAllowUnknownFields(b) => c.(allowUnknownFields := b)
    case WithDefaultRequestID(id) => c.(defaultRequestID := id)
  }

  /** `applyOptions`: the options in list order. */
  function ApplyOptions(c: ClientConfig, opts: seq<ClientOption>): ClientConfig
    decreases |opts|
  {
    if opts == [] then c else ApplyOptions(Apply(c, opts[0]), opts[1..])
  }

  /** The value of the last `WithAllowUnknownFields` in the list, if any. */
  function LastAllowUnknownFields(opts: seq<ClientOption>): Option<bool>
    decreases |opts|
  {
    if opts == [] then None
    else match LastAllowUnknownFields(opts[1..])
      case Some(b) => Some(b)
      case None => if opts[0].WithAllowUnknownFields? then Some(opts[0].allowUnknownFields) else None
  }

  /** The value of the last `WithDefaultRequestID` in the list, if any. */
  function LastDefaultRequestID(opts: seq<ClientOption>): Option<int>
    decreases |opts|
  {
    if opts == [] then None
    else match LastDefaultRequestID(opts[1..])
      case Some(id) => Some(id)
      case None => if opts[0].WithDefaultRequestID? then Some(opts[0].defaultRequestID) else None
  }

  /** The last option touching a field decides it; untouched fields keep
      their starting value. */
  lemma {:induction false} LastOptionWins(c: ClientConfig, opts: seq<ClientOption>)
    ensures ApplyOptions(c, opts).allowUnknownFields == LastAllowUnknownFields(opts).GetOr(c.allowUnknownFields)
    ensures ApplyOptions(c, opts).defaultRequestID == LastDefaultRequestID(opts).GetOr(c.defaultRequestID)
    decreases |opts|
  {
    if opts != [] {
      LastOptionWins(Apply(c, opts[0]), opts[1..]);
    }
  }
}

=== FILE: jsonrpc_request.dfy ===
/** Building JSON-RPC request objects (pkg/transport/client/jsonrpc/request.go).
    Go's `any` arguments are modelled by their reflected kind and an opaque
    identity; only the kind decides how the parameter list is shaped. */
module JsonRpcRequest {
  import opened Results

  const Version: string := "2.0"

  /** The reflect kinds, with pointers kept as a chain to their element. */
  datatype Kind =
    | Ptr(elem: Kind)
    | Struct | Array | SliceKind | Interface | Map
    | Bool | Int | Uint | Float | Complex | String | Chan | Func | UnsafePointer

  /** An argument: a nil interface, or a value of some dynamic kind. */
  datatype Any = NilValue | Value(kind: Kind, id: nat)

  /** The kind left after following every pointer layer. */
  function Deref(k: Kind): (r: Kind)
    ensures !r.Ptr?
    ensures !k.Ptr? ==> r == k
  {
    match k
    case Ptr(e) => Deref(e)
    case _ => k
  }

  /** Kinds that already marshal to a JSON array or object. */
  predicate IsContainer(k: Kind) {
    k.Struct? || k.Array? || k.SliceKind? || k.Interface? || k.Map?
  }

  /** The `params` member: omitted, one argument sent as it is, or the whole
      argument list sent as an array. */
  datatype ParamsValue = Omitted | Direct(value: Any) | ArrayOf(items: seq<Any>)

  /** `Params`: no arguments (nil or empty) omit the member; a single
      argument whose pointed-to kind is a container is sent unwrapped; any
      other single argument (nil included) and every longer list is sent as
      the array of all the arguments. */
  function Params(params: Slice<Any>): (r: ParamsValue)
    ensures r.Omitted? <==> Items(params) == []
    ensures r.Direct? <==> |Items(params)| == 1 && Items(params)[0].Value? && IsContainer(Deref(Items(params)[0].kind))
    ensures r.Direct? ==> r.value == Items(params)[0]
    ensures r.ArrayOf? ==> r.items == Items(params)
  {
    match params
    case Nil => Omitted
    case Of(ps) =>
      if |ps| == 0 then Omitted
      else if |ps| == 1 then
        match ps[0]
        case NilValue => ArrayOf(ps)
        case Value(kind, _) => if IsContainer(Deref(kind)) then Direct(ps[0]) else ArrayOf(ps)
      else ArrayOf(ps)
  }

  /** The arguments a `params` member carries, read back in order. */
  function Arguments(p: ParamsValue): seq<Any> {
    match p
    case Omitted => []
    case Direct(v) => [v]
    case ArrayOf(items) => items
  }

  /** Shaping the parameters loses, adds and reorders nothing. */
  lemma ParamsKeepsArguments(params: Slice<Any>)
    ensures Arguments(Params(params)) == Items(params)
  {
  }

  /** A single primitive argument, however many pointers lead to it, is
      always wrapped in a one-element array. */
  lemma PrimitiveIsWrapped(v: Any)
    requires v.Value? && !IsContainer(Deref(v.kind))
    ensures Params(Of([v])) == ArrayOf([v])
    ensures Params(Of([Value(Ptr(Ptr(v.kind)), v.id)])) == ArrayOf([Value(Ptr(Ptr(v.kind)), v.id)])
  {
    assert Deref(Ptr(Ptr(v.kind))) == Deref(v.kind);
  }

  datatype RPCRequest = RPCRequest(methodName: string, params: ParamsValue, id: int, jsonrpc: string)

  /** `NewRequestWithID`: the given id, version "2.0", parameters shaped by `Params`. */
  function NewRequestWithID(id: int, methodName: string, params: Slice<Any>): (r: RPCRequest)
    ensures r.id == id && r.methodName == methodName && r.jsonrpc == Version
    ensures Arguments(r.params) == Items(params)
    ensures r.params.Omitted? <==> Items(params) == []
    ensures r.params.Direct? <==> |Items(params)| == 1 && Items(params)[0].Value? && IsContainer(Deref(Items(params)[0].kind))
  {
    ParamsKeepsArguments(params);
    RPCRequest(methodName, Params(params), id, Version)
  }

  /** `NewRequest`: id 0, version "2.0", parameters shaped by `Params`. */
  function NewRequest(methodName: string, params: Slice<Any>): (r: RPCRequest)
    ensures r.id == 0 && r.methodName == methodName && r.jsonrpc == Version
    ensures Arguments(r.params) == Items(params)
    ensures r.params.Omitted? <==> Items(params) == []
    ensures r.params.Direct? <==> |Items(params)| == 1 && Items(params)[0].Value? && IsContainer(Deref(Items(params)[0].kind))
    ensures r == NewRequestWithID(0, methodName, params)
  {
    ParamsKeepsArguments(params);
    RPCRequest(methodName, Params(params), 0, Version)
  }
}

=== FILE: matching.dfy ===
/** How the SDK decides that a transaction concerns an address
    (pkg/sdk/block_parser.go, block_listener.go, block_observer.go). Both
    sides are compared after lower-casing the transaction's addresses; the
    address being matched is used as given. */
module Matching {
  import opened Results
  import opened Blocks
  import opened MultiMaps
  import Ascii
  import TxHistory
  import opened Numbers

  /** Which ledger the range scan and the listener file a transaction under:
      a `to` match wins, so a self-transfer is inbound only. */
  datatype Direction = Inbound | Outbound | Unrelated

  function Classify(address: string, tx: Tx): (d: Direction)
    ensures d != Unrelated <==> Involves(address, tx)
    ensures d == Inbound <==> address == Ascii.ToLower(tx.to)
  {
    if address == Ascii.ToLower(tx.to) then Inbound
    else if address == Ascii.ToLower(tx.from) then Outbound
    else Unrelated
  }

  /** The observer's test: the address is the sender or the recipient. */
  predicate Involves(address: string, tx: Tx) {
    address == Ascii.ToLower(tx.to) || address == Ascii.ToLower(tx.from)
  }

  /** The transactions of `txs` classified as `d` for `address`, in order. */
  function Filed(txs: seq<Tx>, address: string, d: Direction): (r: seq<Tx>)
    ensures forall i :: 0 <= i < |r| ==> Classify(address, r[i]) == d
    decreases |txs|
  {
    if txs == [] then []
    else (if Classify(address, txs[0]) == d then [txs[0]] else []) + Filed(txs[1..], address, d)
  }

  /** The transactions of `txs` that involve `address`, in order. */
  function Involving(txs: seq<Tx>, address: string): (r: seq<Tx>)
    ensures forall i :: 0 <= i < |r| ==> Involves(address, r[i])
    decreases |txs|
  {
    if txs == [] then []
    else (if Involves(address, txs[0]) then [txs[0]] else []) + Involving(txs[1..], address)
  }

  /** A transaction is filed somewhere exactly when it involves the address. */
  lemma ClassifyCoversInvolves(address: string, tx: Tx)
    ensures Classify(address, tx) != Unrelated <==> Involves(address, tx)
    ensures Ascii.ToLower(tx.to) == address && Ascii.ToLower(tx.from) == address ==> Classify(address, tx) == Inbound
  {
  }

  /** Every involved transaction lands in exactly one of the two ledgers. */
  lemma {:induction false} FiledPartitionsInvolving(txs: seq<Tx>, address: string)
    ensures |Filed(txs, address, Inbound)| + |Filed(txs, address, Outbound)| == |Involving(txs, address)|
    decreases |txs|
  {
    if txs != [] {
      ClassifyCoversInvolves(address, txs[0]);
      FiledPartitionsInvolving(txs[1..], address);
    }
  }

  /** Filtering distributes over concatenation: a block's involved
      transactions keep block order, and each occurrence appears exactly
      once when it involves the address and not at all otherwise. */
  lemma {:induction false} InvolvingAppend(txs: seq<Tx>, more: seq<Tx>, address: string)
    ensures Involving(txs + more, address) == Involving(txs, address) + Involving(more, address)
    ensures Involving([], address) == []
    decreases |txs|
  {
    if txs != [] {
      assert (txs + more)[1..] == txs[1..] + more;
      InvolvingAppend(txs[1..], more, address);
    } else {
      assert txs + more == more;
    }
  }

  lemma InvolvingOne(tx: Tx, address: string)
    ensures Involving([tx], address) == if Involves(address, tx) then [tx] else []
  {
    assert [tx][1..] == [];
  }

  /** One pass of the inner loop for one transaction. */
  function RecordOne(s: TxHistory.Store, address: string, blockNumber: Int64, tx: Tx): TxHistory.Store {
    match Classify(address, tx)
    case Inbound => TxHistory.Insert(s, address, blockNumber, tx, true)
    case Outbound => TxHistory.Insert(s, address, blockNumber, tx, false)
    case Unrelated => s
  }

  /** The inner loop shared by the range scan and the listener: every
      transaction of the block, in order, is inserted for `address` under
      `blockNumber` when it matches. */
  function RecordMatches(s: TxHistory.Store, address: string, blockNumber: Int64, txs: seq<Tx>): TxHistory.Store
    decreases |txs|
  {
    if txs == [] then s else RecordMatches(RecordOne(s, address, blockNumber, txs[0]), address, blockNumber, txs[1..])
  }

  /** Some transaction of `txs` is filed for `address`. */
  predicate HasMatch(txs: seq<Tx>, address: string) {
    Filed(txs, address, Inbound) + Filed(txs, address, Outbound) != []
  }

  lemma FiledOne(tx: Tx, address: string, d: Direction)
    ensures Filed([tx], address, d) == if Classify(address, tx) == d then [tx] else []
  {
    assert [tx][1..] == [];
  }

  lemma FiledCons(txs: seq<Tx>, address: string, d: Direction)
    requires txs != []
    ensures Filed(txs, address, d) == Filed([txs[0]], address, d) + Filed(txs[1..], address, d)
  {
    FiledOne(txs[0], address, d);
  }

  /** One transaction is appended to the ledger it is filed under, and
      moves the watermark if filed at all. */
  lemma RecordOneEffect(s: TxHistory.Store, address: string, blockNumber: Int64, tx: Tx)
    ensures var r := RecordOne(s, address, blockNumber, tx);
      && Values(r.inbound, address) == Values(s.inbound, address) + Filed([tx], address, Inbound)
      && Values(r.outbound, address) == Values(s.outbound, address) + Filed([tx], address, Outbound)
      && (Classify(address, tx) != Inbound ==>
            TxHistory.GetInboundTransactionsPerAddress(r, address) == TxHistory.GetInboundTransactionsPerAddress(s, address))
      && (Classify(address, tx) != Outbound ==>
            TxHistory.GetOutboundTransactionsPerAddress(r, address) == TxHistory.GetOutboundTransactionsPerAddress(s, address))
      && TxHistory.GetLatestBlockNumberPerAddress(r, address)
         == (if Classify(address, tx) != Unrelated then blockNumber else TxHistory.GetLatestBlockNumberPerAddress(s, address))
  {
    FiledOne(tx, address, Inbound);
    FiledOne(tx, address, Outbound);
  }

  /** One transaction touches no other address. */
  lemma RecordOneFrame(s: TxHistory.Store, address: string, blockNumber: Int64, tx: Tx, other: string)
    requires other != address
    ensures TxHistory.AgreeAt(RecordOne(s, address, blockNumber, tx), s, other)
  {
  }

  /** The inner loop appends the inbound matches to the inbound ledger, in
      block order, and leaves that ledger (nil or not) exactly as it was
      when nothing is inbound. */
  lemma {:induction false} RecordMatchesInbound(s: TxHistory.Store, address: string, blockNumber: Int64, txs: seq<Tx>)
    ensures var r := RecordMatches(s, address, blockNumber, txs);
      && Values(r.inbound, address) == Values(s.inbound, address) + Filed(txs, address, Inbound)
      && (Filed(txs, address, Inbound) == [] ==>
            TxHistory.GetInboundTransactionsPerAddress(r, address) == TxHistory.GetInboundTransactionsPerAddress(s, address))
    decreases |txs|
  {
    if txs != [] {
      var s1 := RecordOne(s, address, blockNumber, txs[0]);
      RecordOneEffect(s, address, blockNumber, txs[0]);
      RecordMatchesInbound(s1, address, blockNumber, txs[1..]);
      FiledCons(txs, address, Inbound);
      FiledOne(txs[0], address, Inbound);
      var r := RecordMatches(s, address, blockNumber, txs);
      assert r == RecordMatches(s1, address, blockNumber, txs[1..]);
      assert Values(r.inbound, address) == Values(s.inbound, address) + Filed([txs[0]], address, Inbound) + Filed(txs[1..], address, Inbound);
      if Filed(txs, address, Inbound) == [] {
        assert Classify(address, txs[0]) != Inbound;
      }
    }
  }

  /** The same for the outbound ledger. */
  lemma {:induction false} RecordMatchesOutbound(s: TxHistory.Store, address: string, blockNumber: Int64, txs: seq<Tx>)
    ensures var r := RecordMatches(s, address, blockNumber, txs);
      && Values(r.outbound, address) == Values(s.outbound, address) + Filed(txs, address, Outbound)
      && (Filed(txs, address, Outbound) == [] ==>
            TxHistory.GetOutboundTransactionsPerAddress(r, address) == TxHistory.GetOutboundTransactionsPerAddress(s, address))
    decreases |txs|
  {
    if txs != [] {
      var s1 := RecordOne(s, address, blockNumber, txs[0]);
      RecordOneEffect(s, address, blockNumber, txs[0]);
      RecordMatchesOutbound(s1, address, blockNumber, txs[1..]);
      FiledCons(txs, address, Outbound);
      FiledOne(txs[0], address, Outbound);
      var r := RecordMatches(s, address, blockNumber, txs);
      assert r == RecordMatches(s1, address, blockNumber, txs[1..]);
      assert Values(r.outbound, address) == Values(s.outbound, address) + Filed([txs[0]], address, Outbound) + Filed(txs[1..], address, Outbound);
      if Filed(txs, address, Outbound) == [] {
        assert Classify(address, txs[0]) != Outbound;
      }
    }
  }

  /** The inner loop moves the watermark to `blockNumber` exactly when some
      transaction matched. */
  lemma {:induction false} RecordMatchesWatermark(s: TxHistory.Store, address: string, blockNumber: Int64, txs: seq<Tx>)
    ensures TxHistory.GetLatestBlockNumberPerAddress(RecordMatches(s, address, blockNumber, txs), address)
         == (if HasMatch(txs, address) then blockNumber else TxHistory.GetLatestBlockNumberPerAddress(s, address))
    decreases |txs|
  {
    if txs != [] {
      var s1 := RecordOne(s, address, blockNumber, txs[0]);
      RecordOneEffect(s, address, blockNumber, txs[0]);
      RecordMatchesWatermark(s1, address, blockNumber, txs[1..]);
      FiledCons(txs, address, Inbound);
      FiledCons(txs, address, Outbound);
    }
  }

  /** The inner loop leaves every other address's ledgers and watermark alone. */
  lemma {:induction false} RecordMatchesFrame(s: TxHistory.Store, address: string, blockNumber: Int64, txs: seq<Tx>, other: string)
    requires other != address
    ensures TxHistory.AgreeAt(RecordMatches(s, address, blockNumber, txs), s, other)
    decreases |txs|
  {
    if txs != [] {
      var s1 := RecordOne(s, address, blockNumber, txs[0]);
      RecordOneFrame(s, address, blockNumber, txs[0], other);
      RecordMatchesFrame(s1, address, blockNumber, txs[1..], other);
    }
  }

  /** What the inner loop did for `address`, stated through the store's
      getters only: ledgers extended by the matches, nil-ness kept where
      nothing matched, watermark moved exactly when something matched. */
  predicate RecordedFor(s: TxHistory.Store, r: TxHistory.Store, address: string, blockNumber: Int64, txs: seq<Tx>) {
    && Items(TxHistory.GetInboundTransactionsPerAddress(r, address))
       == Items(TxHistory.GetInboundTransactionsPerAddress(s, address)) + Filed(txs, address, Inbound)
    && Items(TxHistory.GetOutboundTransactionsPerAddress(r, address))
       == Items(TxHistory.GetOutboundTransactionsPerAddress(s, address)) + Filed(txs, address, Outbound)
    && (Filed(txs, address, Inbound) == [] ==>
          TxHistory.GetInboundTransactionsPerAddress(r, address) == TxHistory.GetInboundTransactionsPerAddress(s, address))
    && (Filed(txs, address, Outbound) == [] ==>
          TxHistory.GetOutboundTransactionsPerAddress(r, address) == TxHistory.GetOutboundTransactionsPerAddress(s, address))
    && TxHistory.GetLatestBlockNumberPerAddress(r, address)
       == (if HasMatch(txs, address) then blockNumber else TxHistory.GetLatestBlockNumberPerAddress(s, address))
  }

  /** The inner loop for `address` does exactly what `RecordedFor` says. */
  lemma RecordMatchesRecords(s: TxHistory.Store, address: string, blockNumber: Int64, txs: seq<Tx>)
    ensures RecordedFor(s, RecordMatches(s, address, blockNumber, txs), address, blockNumber, txs)
  {
    RecordMatchesInbound(s, address, blockNumber, txs);
    RecordMatchesOutbound(s, address, blockNumber, txs);
    RecordMatchesWatermark(s, address, blockNumber, txs);
  }
}

=== FILE: multimap.dfy ===
/** The concurrent multimap (pkg/storage/memory/multimap.go): a map from a key
    to an append-only sequence of values. The mutex is read as "every
    operation is atomic", so the multimap is a plain value here. */
module MultiMaps {
  import opened Results

  datatype MultiMap<K, V> = MultiMap(entries: map<K, seq<V>>)

  /** `New`: no key is present. */
  function Empty<K(!new), V>(): (mm: MultiMap<K, V>)
    ensures forall k :: k !in mm.entries
  {
    MultiMap(map[])
  }

  /** `Get`: the stored slice and whether the key was present; a missing key
      yields a nil slice. */
  function Get<K, V>(mm: MultiMap<K, V>, key: K): (r: (Slice<V>, bool))
    ensures r.1 <==> key in mm.entries
    ensures !r.1 ==> r.0 == Nil
    ensures r.1 ==> r.0 == Of(mm.entries[key])
  {
    if key in mm.entries then (Of(mm.entries[key]), true) else (Nil, false)
  }

  /** The values stored under `key`, oldest first; none for a missing key. */
  function Values<K, V>(mm: MultiMap<K, V>, key: K): seq<V> {
    Items(Get(mm, key).0)
  }

  /** `Put`: appends `value` at the end of the sequence under `key`, creating
      it if absent. */
  function Put<K(!new), V>(mm: MultiMap<K, V>, key: K, value: V): (r: MultiMap<K, V>)
    ensures Get(r, key) == (Of(Values(mm, key) + [value]), true)
    ensures forall other :: other != key ==> Get(r, other) == Get(mm, other)
  {
    MultiMap(mm.entries[key := Values(mm, key) + [value]])
  }

  /** Only `Put` writes, so no stored sequence is ever empty. */
  ghost predicate Valid<K, V>(mm: MultiMap<K, V>) {
    forall k :: k in mm.entries ==> mm.entries[k] != []
  }

  lemma PutKeepsValid<K(!new), V>(mm: MultiMap<K, V>, key: K, value: V)
    requires Valid(mm)
    ensures Valid(Put(mm, key, value))
  {
  }

  /** In a valid multimap a key is found exactly when it has values. */
  lemma FoundIffValues<K, V>(mm: MultiMap<K, V>, key: K)
    requires Valid(mm)
    ensures Get(mm, key).1 <==> Values(mm, key) != []
  {
  }

  /** The puts of a history, applied in order. */
  function PutAllInOrder<K(!new), V>(mm: MultiMap<K, V>, puts: seq<(K, V)>): MultiMap<K, V>
    decreases |puts|
  {
    if puts == [] then mm else PutAllInOrder(Put(mm, puts[0].0, puts[0].1), puts[1..])
  }

  /** The values a history puts under `key`, in order. */
  function PutsTo<K(==), V>(puts: seq<(K, V)>, key: K): seq<V>
    decreases |puts|
  {
    if puts == [] then []
    else (if puts[0].0 == key then [puts[0].1] else []) + PutsTo(puts[1..], key)
  }

  /** Nothing is lost or reordered: after a history of puts, each key holds
      what it held before followed by exactly the values put to it, in order. */
  lemma {:induction false} PutAllValues<K(!new), V>(mm: MultiMap<K, V>, puts: seq<(K, V)>, key: K)
    ensures Values(PutAllInOrder(mm, puts), key) == Values(mm, key) + PutsTo(puts, key)
    decreases |puts|
  {
    if puts != [] {
      var next := Put(mm, puts[0].0, puts[0].1);
      PutAllValues(next, puts[1..], key);
    }
  }

  /** A key that no put of a history names is still missing afterwards. */
  lemma {:induction false} NeverPutNotFound<K(!new), V>(puts: seq<(K, V)>, key: K)
    requires forall i :: 0 <= i < |puts| ==> puts[i].0 != key
    ensures Get(PutAllInOrder(Empty(), puts), key) == (Nil, false)
  {
    PutAllPreservesAbsence(Empty(), puts, key);
  }

  lemma {:induction false} PutAllPreservesAbsence<K(!new), V>(mm: MultiMap<K, V>, puts: seq<(K, V)>, key: K)
    requires forall i :: 0 <= i < |puts| ==> puts[i].0 != key
    ensures Get(PutAllInOrder(mm, puts), key) == Get(mm, key)
    decreases |puts|
  {
    if puts != [] {
      PutAllPreservesAbsence(Put(mm, puts[0].0, puts[0].1), puts[1..], key);
    }
  }

  /** The number of values under a key of a fresh multimap is the number of
      puts to that key. */
  lemma PutCount<K(!new), V>(puts: seq<(K, V)>, key: K)
    ensures |Values(PutAllInOrder(Empty(), puts), key)| == |PutsTo(puts, key)|
  {
    PutAllValues(Empty(), puts, key);
  }
}

=== FILE: numbers.dfy ===
/** Integer <-> hexadecimal text conversion (pkg/numbers), together with the
    pieces of Go's `strconv` and `fmt` that it relies on: `ParseInt(s, 16, 64)`,
    the `%x` verb and `strconv.Itoa`. Go's `int` is 64 bits wide here. */
module Numbers {
  import opened Results
  import Ascii

  const MinInt64: int := -0x8000_0000_0000_0000
  const MaxInt64: int := 0x7FFF_FFFF_FFFF_FFFF
  const MaxUint64: int := 0xFFFF_FFFF_FFFF_FFFF
  const TwoTo64: int := 0x1_0000_0000_0000_0000

  /** Go's 64-bit `int`. */
  type Int64 = x: int | MinInt64 <= x <= MaxInt64

  /** Two's-complement wrap-around of a mathematical integer into 64 bits,
      which is what Go's `-` and `+` on `int` produce. */
  function Wrap64(x: int): (r: Int64)
    ensures (x - r) % TwoTo64 == 0
    ensures MinInt64 <= x <= MaxInt64 ==> r == x
  {
    var k := (x - MinInt64) / TwoTo64;
    assert x - MinInt64 == k * TwoTo64 + (x - MinInt64) % TwoTo64;
    (x - MinInt64) % TwoTo64 + MinInt64
  }

  /** The error kinds `strconv.ParseInt` reports. */
  datatype NumError = ErrSyntax | ErrRange

  // ---------------------------------------------------------------------
  // Digits

  /** The value of a hexadecimal digit of either case, as `strconv` reads it. */
  function DigitValue(c: char): (r: Option<nat>)
    ensures r.Some? ==> r.value < 16
    ensures r.Some? <==> '0' <= c <= '9' || 'a' <= c <= 'f' || 'A' <= c <= 'F'
  {
    if '0' <= c <= '9' then Some(c as int - '0' as int)
    else if 'a' <= c <= 'f' then Some(c as int - 'a' as int + 10)
    else if 'A' <= c <= 'F' then Some(c as int - 'A' as int + 10)
    else None
  }

  /** The lower-case digit character `fmt` and `strconv` print for `d`. */
  function DigitChar(d: nat): (c: char)
    requires d < 16
    ensures DigitValue(c) == Some(d)
    ensures !Ascii.IsUpper(c)
  {
    if d < 10 then ('0' as int + d) as char else ('a' as int + d - 10) as char
  }

  predicate IsDigitIn(c: char, base: nat) {
    DigitValue(c).Some? && DigitValue(c).value < base
  }

  predicate AllDigits(s: string, base: nat) {
    forall i :: 0 <= i < |s| ==> IsDigitIn(s[i], base)
  }

  /** A digit string as printed: non-empty, lower-case, and without a leading
      zero unless the number itself is zero. */
  predicate IsCanonical(s: string, base: nat) {
    && s != []
    && AllDigits(s, base)
    && Ascii.IsLowerCase(s)
    && (s[0] == '0' ==> s == "0")
  }

  /** Horner evaluation of a digit string, most significant digit first, on
      top of the accumulated value `acc`. */
  function Horner(s: string, acc: nat, base: nat): nat
    requires AllDigits(s, base)
    decreases |s|
  {
    if s == [] then acc else Horner(s[1..], acc * base + DigitValue(s[0]).value, base)
  }

  /** The digits of `n` in `base`, most significant first, no leading zeros. */
  function DigitsOf(n: nat, base: nat): (s: string)
    requires 2 <= base <= 16
    ensures s != [] && AllDigits(s, base) && Ascii.IsLowerCase(s)
    decreases n
  {
    if n < base then [DigitChar(n)]
    else
      DivMod(n, base);
      var prefix := DigitsOf(n / base, base);
      var last := DigitChar(n % base);
      AppendDigit(prefix, last, base);
      prefix + [last]
  }

  lemma AppendDigit(s: string, c: char, base: nat)
    requires AllDigits(s, base) && Ascii.IsLowerCase(s)
    requires IsDigitIn(c, base) && !Ascii.IsUpper(c)
    ensures AllDigits(s + [c], base) && Ascii.IsLowerCase(s + [c])
  {
    assert forall i :: 0 <= i < |s + [c]| ==> (s + [c])[i] == if i < |s| then s[i] else c;
  }

  lemma {:induction false} HornerAppend(s: string, c: char, acc: nat, base: nat)
    requires AllDigits(s, base) && IsDigitIn(c, base)
    ensures AllDigits(s + [c], base)
    ensures Horner(s + [c], acc, base) == Horner(s, acc, base) * base + DigitValue(c).value
    decreases |s|
  {
    assert AllDigits(s + [c], base);
    if s != [] {
      assert (s + [c])[1..] == s[1..] + [c];
      HornerAppend(s[1..], c, acc * base + DigitValue(s[0]).value, base);
    }
  }

  /** Reading back the printed digits yields the number. */
  lemma {:induction false} DigitsOfValue(n: nat, base: nat)
    requires 2 <= base <= 16
    ensures Horner(DigitsOf(n, base), 0, base) == n
    decreases n
  {
    if n >= base {
      var q, r := n / base, n % base;
      var d, c := DigitsOf(q, base), DigitChar(r);
      assert DigitsOf(n, base) == d + [c];
      HornerAppend(d, c, 0, base);
      assert Horner(d + [c], 0, base) == Horner(d, 0, base) * base + r;
      DivMod(n, base);
      DigitsOfValue(q, base);
    }
  }

  /** One step of `DigitsOf`: a number with two or more digits prints as
      its quotient's digits followed by the digit of its remainder. */
  lemma DigitsOfStep(n: nat, base: nat)
    requires 2 <= base <= 16 && n >= base
    ensures 1 <= n / base < n && n % base < base
    ensures DigitsOf(n, base) == DigitsOf(n / base, base) + [DigitChar(n % base)]
  {
    DivMod(n, base);
  }

  /** The printed digits start with '0' only for zero itself. */
  lemma {:induction false} DigitsOfLeading(n: nat, base: nat)
    requires 2 <= base <= 16
    ensures DigitsOf(n, base)[0] == '0' <==> n == 0
    decreases n
  {
    if n < base {
      assert DigitsOf(n, base) == [DigitChar(n)];
      assert DigitValue('0') == Some(0);
    } else {
      DigitsOfStep(n, base);
      var q := n / base;
      DigitsOfLeading(q, base);
      assert DigitsOf(n, base)[0] == DigitsOf(q, base)[0];
    }
  }

  lemma DigitsOfCanonical(n: nat, base: nat)
    requires 2 <= base <= 16
    ensures IsCanonical(DigitsOf(n, base), base)
    ensures Horner(DigitsOf(n, base), 0, base) == n
  {
    DigitsOfLeading(n, base);
    DigitsOfValue(n, base);
  }

  lemma DivMod(n: nat, b: nat)
    requires b >= 2
    ensures n == (n / b) * b + n % b
    ensures n >= 1 ==> n / b < n
  {
    var q := n / b;
    if q >= 1 {
      MulAtLeast(q, b - 1);
      assert q * b == q * (b - 1) + q;
    }
  }

  lemma MulAtLeast(a: nat, b: nat)
    requires b >= 1
    ensures a * b >= a
  {
    assert a * b == a * (b - 1) + a;
  }

  lemma {:induction false} HornerAtLeast(s: string, acc: nat, base: nat)
    requires AllDigits(s, base)
    ensures Horner(s, acc, base) >= acc
    decreases |s|
  {
    if s != [] {
      var next := acc * base + DigitValue(s[0]).value;
      HornerAtLeast(s[1..], next, base);
      MulAtLeast(acc, base);
    }
  }

  lemma HornerGrows(s: string, acc: nat, base: nat)
    requires AllDigits(s, base) && s != []
    ensures Horner(s, acc, base) >= acc * base + DigitValue(s[0]).value
  {
    HornerAtLeast(s[1..], acc * base + DigitValue(s[0]).value, base);
  }

  // ---------------------------------------------------------------------
  // Printing

  /** `fmt`'s rendering of an integer in `base`: a minus sign for negatives,
      then the digits of the magnitude. */
  function FormatInt(i: int, base: nat): string
    requires 2 <= base <= 16
  {
    if i < 0 then "-" + DigitsOf(-i, base) else DigitsOf(i, base)
  }

  /** `strconv.Itoa`. */
  function Itoa(i: int): (r: string)
    ensures r != []
    ensures i < 0 <==> r[0] == '-'
    ensures var digits := if i < 0 then r[1..] else r;
            IsCanonical(digits, 10) && Horner(digits, 0, 10) == Abs(i)
  {
    DigitsOfCanonical(Abs(i), 10);
    var r := FormatInt(i, 10);
    assert (if i < 0 then r[1..] else r) == DigitsOf(Abs(i), 10);
    r
  }

  function Abs(i: int): nat {
    if i < 0 then -i else i
  }

  /** IntToHex (pkg/numbers): `fmt.Sprintf("0x%x", i)`, so negatives print as
      "0x-" followed by the digits of the magnitude. */
  function IntToHex(i: Int64): (r: string)
    ensures |r| >= 3 && r[..2] == "0x"
    ensures i < 0 <==> r[2] == '-'
    ensures var digits := if i < 0 then r[3..] else r[2..];
            IsCanonical(digits, 16) && Horner(digits, 0, 16) == Abs(i)
  {
    var digits := DigitsOf(Abs(i), 16);
    DigitsOfCanonical(Abs(i), 16);
    var r := "0x" + FormatInt(i, 16);
    assert (if i < 0 then r[3..] else r[2..]) == digits;
    r
  }

  // ---------------------------------------------------------------------
  // Parsing

  /** `strings.TrimPrefix`: removes one occurrence of `prefix`, if present. */
  function TrimPrefix(s: string, prefix: string): (r: string)
    ensures prefix <= s ==> s == prefix + r
    ensures !(prefix <= s) ==> r == s
  {
    if prefix <= s then s[|prefix|..] else s
  }

  /** `maxUint64/16 + 1`: an accumulator at or above it overflows when shifted. */
  const Cutoff: nat := 0x1000_0000_0000_0000

  /** The digit loop of `strconv.ParseUint(s, 16, 64)`, left to right: a
      character that is not a hexadecimal digit is a syntax error, and an
      accumulator that would overflow 64 bits is a range error, whichever
      comes first. (Go's second overflow test, on adding the digit, can never
      fire in base 16 and is omitted.) */
  function ScanHex(s: string, n: nat): Result<nat, NumError>
    decreases |s|
  {
    if s == [] then Ok(n)
    else
      match DigitValue(s[0])
      case None => Err(ErrSyntax)
      case Some(d) => if n >= Cutoff then Err(ErrRange) else ScanHex(s[1..], n * 16 + d)
  }

  /** `strconv.ParseUint(s, 16, 64)`. */
  function ParseUint16(s: string): Result<nat, NumError> {
    if s == [] then Err(ErrSyntax) else ScanHex(s, 0)
  }

  predicate HasSign(s: string) {
    s != [] && (s[0] == '+' || s[0] == '-')
  }

  /** The digits after an optional leading sign. */
  function Unsigned(s: string): string {
    if HasSign(s) then s[1..] else s
  }

  /** `strconv.ParseInt(s, 16, 64)`: an optional sign, then `ParseUint`, then
      the signed 64-bit range check. */
  function ParseInt16(s: string): Result<Int64, NumError> {
    if s == [] then Err(ErrSyntax)
    else
      var neg := s[0] == '-';
      match ParseUint16(Unsigned(s))
      case Err(ErrSyntax) => Err(ErrSyntax)
      // on a range error ParseUint yields maxUint64, which fails the check below
      case Err(ErrRange) => Err(ErrRange)
      case Ok(un) =>
        if !neg && un > MaxInt64 then Err(ErrRange)
        else if neg && un > -MinInt64 then Err(ErrRange)
        else
          var v: int := if neg then -(un as int) else un;
          Ok(v)
  }

  /** HexToInt (pkg/numbers). The source also returns 0 beside the error;
      no caller reads it. */
  function HexToInt(value: string): (r: Result<Int64, NumError>)
    ensures var digits := TrimPrefix(value, "0x");
            && (r.Ok? <==> IsHexInt64(digits))
            && (r.Ok? ==> r.value == SignedValue(digits))
            && (Unsigned(digits) != [] && AllDigits(Unsigned(digits), 16) && !IsHexInt64(digits) ==> r == Err(ErrRange))
  {
    ParseInt16Spec(TrimPrefix(value, "0x"));
    ParseInt16(TrimPrefix(value, "0x"))
  }

  // ---------------------------------------------------------------------
  // Properties

  /** On a string of hexadecimal digits the scan either returns the digits'
      value or, exactly when it exceeds 64 bits, a range error. */
  lemma {:induction false} ScanHexDigits(s: string, n: nat)
    requires AllDigits(s, 16) && n <= MaxUint64
    ensures ScanHex(s, n) == if Horner(s, n, 16) <= MaxUint64 then Ok(Horner(s, n, 16)) else Err(ErrRange)
    decreases |s|
  {
    if s != [] {
      HornerGrows(s, n, 16);
      if n < Cutoff {
        ScanHexDigits(s[1..], n * 16 + DigitValue(s[0]).value);
      }
    }
  }

  /** Any character that is not a hexadecimal digit makes the scan fail. */
  lemma {:induction false} ScanHexRejects(s: string, n: nat)
    requires !AllDigits(s, 16)
    ensures ScanHex(s, n).Err?
    decreases |s|
  {
    if DigitValue(s[0]).Some? && n < Cutoff {
      assert !AllDigits(s[1..], 16) by {
        var i :| 0 <= i < |s| && !IsDigitIn(s[i], 16);
        assert i > 0 && s[1..][i - 1] == s[i];
      }
      ScanHexRejects(s[1..], n * 16 + DigitValue(s[0]).value);
    }
  }

  /** Digit case never changes the scan. */
  lemma {:induction false} ScanHexIgnoresCase(s: string, n: nat)
    ensures ScanHex(Ascii.ToLower(s), n) == ScanHex(s, n)
    decreases |s|
  {
    if s != [] {
      assert Ascii.ToLower(s)[1..] == Ascii.ToLower(s[1..]);
      ScanHexIgnoresCase(s[1..], n * 16 + DigitValue(s[0]).GetOr(0));
    }
  }

  /** The signed value a well-formed hexadecimal numeral denotes. */
  function SignedValue(s: string): int
    requires AllDigits(Unsigned(s), 16)
  {
    var magnitude: int := Horner(Unsigned(s), 0, 16);
    if s != [] && s[0] == '-' then -magnitude else magnitude
  }

  /** A numeral `ParseInt(s, 16, 64)` accepts: an optional sign, at least one
      hexadecimal digit of either case and nothing else, in the int64 range. */
  predicate IsHexInt64(s: string) {
    && Unsigned(s) != []
    && AllDigits(Unsigned(s), 16)
    && MinInt64 <= SignedValue(s) <= MaxInt64
  }

  /** ParseInt succeeds exactly on int64 numerals, with their value; a digit
      string out of range is a range error. */
  lemma ParseInt16Spec(s: string)
    ensures ParseInt16(s).Ok? <==> IsHexInt64(s)
    ensures ParseInt16(s).Ok? ==> ParseInt16(s).value == SignedValue(s)
    ensures Unsigned(s) != [] && AllDigits(Unsigned(s), 16) && !IsHexInt64(s) ==> ParseInt16(s) == Err(ErrRange)
  {
    var u := Unsigned(s);
    if u != [] {
      if AllDigits(u, 16) {
        ScanHexDigits(u, 0);
      } else {
        ScanHexRejects(u, 0);
      }
    }
  }

  /** HexToInt strips one leading lower-case "0x", if any, and then accepts
      exactly the int64 numerals. */
  lemma HexToIntSpec(value: string)
    ensures var digits := TrimPrefix(value, "0x");
            && (HexToInt(value).Ok? <==> IsHexInt64(digits))
            && (HexToInt(value).Ok? ==> HexToInt(value).value == SignedValue(digits))
  {
    ParseInt16Spec(TrimPrefix(value, "0x"));
  }

  /** HexToInt inverts IntToHex on every 64-bit integer, negatives included. */
  lemma HexRoundTrip(i: Int64)
    ensures HexToInt(IntToHex(i)) == Ok(i)
  {
    var f := FormatInt(i, 16);
    assert TrimPrefix(IntToHex(i), "0x") == f by {
      assert "0x" <= "0x" + f;
    }
    DigitsOfCanonical(Abs(i), 16);
    ParseInt16Spec(f);
    if i < 0 {
      assert Unsigned(f) == DigitsOf(Abs(i), 16);
    } else {
      assert !HasSign(f) by { assert DigitValue(f[0]).Some?; }
    }
  }

  /** Lower-casing commutes with stripping "0x" unless it creates the prefix. */
  lemma TrimPrefixLower(value: string)
    requires !("0X" <= value)
    ensures TrimPrefix(Ascii.ToLower(value), "0x") == Ascii.ToLower(TrimPrefix(value, "0x"))
  {
    var low := Ascii.ToLower(value);
    if "0x" <= value {
      Ascii.ToLowerAppend("0x", value[2..]);
      assert value == "0x" + value[2..];
      assert "0x" <= low;
    } else if |value| >= 2 {
      assert value[0] != '0' || (value[1] != 'x' && value[1] != 'X');
      assert !("0x" <= low) by {
        if value[0] != '0' { assert low[0] != '0'; } else { assert low[1] != 'x'; }
      }
    } else {
      assert !("0x" <= low);
    }
  }

  lemma ParseInt16IgnoresCase(t: string)
    ensures ParseInt16(Ascii.ToLower(t)) == ParseInt16(t)
  {
    if t != [] {
      var lt := Ascii.ToLower(t);
      assert lt[0] == '-' <==> t[0] == '-';
      assert Unsigned(lt) == Ascii.ToLower(Unsigned(t));
      ScanHexIgnoresCase(Unsigned(t), 0);
    }
  }

  /** Upper-case digits read like lower-case ones: lower-casing the input
      changes nothing, provided it does not turn an upper-case "0X" into the
      prefix that is stripped. */
  lemma HexToIntIgnoresCase(value: string)
    requires !("0X" <= value)
    ensures HexToInt(Ascii.ToLower(value)) == HexToInt(value)
  {
    TrimPrefixLower(value);
    ParseInt16IgnoresCase(TrimPrefix(value, "0x"));
  }

  /** A reference reader for `strconv.Itoa`'s output: an optional minus sign
      and at least one decimal digit. */
  function ParseDecimal(s: string): Option<int> {
    if s != [] && s[0] == '-' then
      if |s| > 1 && AllDigits(s[1..], 10) then
        var magnitude: int := Horner(s[1..], 0, 10);
        Some(-magnitude)
      else None
    else if s != [] && AllDigits(s, 10) then Some(Horner(s, 0, 10))
    else None
  }

  /** Itoa prints something the decimal reader maps back to the same integer. */
  lemma ItoaRoundTrip(i: int)
    ensures ParseDecimal(Itoa(i)) == Some(i)
  {
    DigitsOfCanonical(Abs(i), 10);
    if i < 0 {
      assert Itoa(i)[1..] == DigitsOf(-i, 10);
    }
  }

  /** Itoa's text never contains a colon. */
  lemma ItoaHasNoColon(i: int)
    ensures ':' !in Itoa(i)
  {
    var d := DigitsOf(Abs(i), 10);
    assert forall k :: 0 <= k < |d| ==> d[k] != ':' by {
      forall k | 0 <= k < |d| ensures d[k] != ':' { assert IsDigitIn(d[k], 10); }
    }
  }
}

=== FILE: poll.dfy ===
/** The prelude both pollers run on every tick once the subscriber snapshot
    is non-empty (pkg/sdk/block_observer.go and pkg/sdk/block_listener.go):
    fetch the latest block number, then that block. A failure is sent to the
    error channel and the tick carries on, so a failed number fetch asks for
    block -1 and a failed block fetch leaves a nil transaction list. */
module Poll {
  import opened Results
  import opened Numbers
  import opened Blocks
  import opened BlockParser

  /** What a tick fetched: the block number used, the block's transactions,
      the calls issued and the errors sent to the channel, in order. */
  datatype Fetch = Fetch(latest: Int64, txs: Slice<Tx>, calls: seq<RpcCall>, errors: seq<SdkError>)

  function Sent(e: Option<SdkError>): (r: seq<SdkError>)
    ensures |r| <= 1
  {
    match e
    case None => []
    case Some(err) => [err]
  }

  /** The fetch: the block asked for is the number the node reported, or -1
      when that call failed or its answer did not parse; the block is asked
      for with full transactions in every case. */
  function FetchLatestBlock(numberReply: NumberReply, blockReply: BlockReply): (f: Fetch)
    ensures |f.calls| == 2 && f.calls[0] == BlockNumberCall
    ensures f.calls[1].BlockByNumberCall? && f.calls[1].fullTransactions
    ensures HexToInt(f.calls[1].blockHex) == Ok(f.latest)
    ensures numberReply.Err? ==> f.latest == -1
    ensures numberReply.Ok? && HexToInt(Render(numberReply.value.result)).Err? ==> f.latest == -1
    ensures numberReply.Ok? && HexToInt(Render(numberReply.value.result)).Ok? ==>
      f.latest == HexToInt(Render(numberReply.value.result)).value
    ensures blockReply.Err? ==> f.txs == Nil
    ensures blockReply.Ok? ==> f.txs == blockReply.value
    ensures f.errors == (if GetCurrentBlock(numberReply).err.Some? then [GetCurrentBlock(numberReply).err.value] else [])
                      + (if blockReply.Err? then [Upstream(blockReply.error)] else [])
  {
    var current := GetCurrentBlock(numberReply);
    var block := GetBlockTransactions(current.number, blockReply);
    BlockCallNamesTheBlock(current.number, blockReply);
    Fetch(current.number, block.txs, [BlockNumberCall, block.call], Sent(current.err) + Sent(block.err))
  }

  /** A failed number fetch does not skip the tick: block -1 is requested,
      written "0x-1". */
  lemma FailedNumberRequestsMinusOne(numberReply: NumberReply, blockReply: BlockReply)
    requires numberReply.Err?
    ensures FetchLatestBlock(numberReply, blockReply).calls[1] == BlockByNumberCall("0x-1", true)
  {
    assert DigitsOf(1, 16) == "1";
    assert FormatInt(-1, 16) == "-1";
  }
}

=== FILE: results.dfy ===
/** Value shapes shared by the whole model: optional values, results with an
    error side, and Go slices, whose nil and empty forms serialize differently
    (JSON `null` versus `[]`). */
module Results {

  datatype Option<+T> = None | Some(value: T) {
    function GetOr(default: T): T {
      match this
      case Some(v) => v
      case None => default
    }
  }

  datatype Result<+T, +E> = Ok(value: T) | Err(error: E)

  /** A Go slice: either nil or a (possibly empty) sequence of elements. */
  datatype Slice<+T> = Nil | Of(elems: seq<T>)

  /** The elements a `range` loop over the slice visits; nil has none. */
  function Items<T>(s: Slice<T>): (r: seq<T>)
    ensures s.Nil? ==> r == []
  {
    match s
    case Nil => []
    case Of(xs) => xs
  }

  /** Go's `append(s, xs...)`: appending nothing returns `s` itself, so a nil
      slice stays nil; appending something always yields a non-nil slice. */
  function Append<T>(s: Slice<T>, xs: seq<T>): (r: Slice<T>)
    ensures Items(r) == Items(s) + xs
    ensures r.Nil? <==> s.Nil? && xs == []
  {
    if xs == [] then s else Of(Items(s) + xs)
  }
}

=== FILE: subscriptions.dfy ===
/** The subscriptions repository (pkg/storage/memory/subscriptions_repository.go):
    the set of subscribed addresses, kept as a map whose only stored value is
    the sentinel -1, and a per-address log of observed transactions. */
module Subscriptions {
  import opened Results
  import opened MultiMaps
  import opened Blocks

  datatype Store = Store(subs: map<string, int>, observed: MultiMap<string, Tx>)

  /** The sentinel stored for every subscriber, also returned for strangers. */
  const NotChecked: int := -1

  /** `NewSubscriptionsRepository`. */
  function New(): (s: Store)
    ensures s.subs.Keys == {}
    ensures forall a :: ObservedLog(s, a) == []
  {
    Store(map[], Empty())
  }

  /** The transactions recorded for an address, oldest first. */
  function ObservedLog(s: Store, address: string): seq<Tx> {
    Values(s.observed, address)
  }

  /** Every stored value is the sentinel: nothing else is ever written. */
  ghost predicate Valid(s: Store) {
    forall a :: a in s.subs ==> s.subs[a] == NotChecked
  }

  /** `InsertSubscriberAddress`: adds the address (verbatim) to the
      subscriber set; no observed log changes. */
  function InsertSubscriberAddress(s: Store, address: string): (r: Store)
    ensures r.subs.Keys == s.subs.Keys + {address}
    ensures r.observed == s.observed
    ensures Valid(s) ==> Valid(r)
  {
    s.(subs := s.subs[address := NotChecked])
  }

  /** Subscribing twice is the same as subscribing once. */
  lemma InsertSubscriberIdempotent(s: Store, address: string)
    ensures InsertSubscriberAddress(InsertSubscriberAddress(s, address), address) == InsertSubscriberAddress(s, address)
  {
  }

  /** `InsertObservedTransaction`: appends to the address's log whether or not
      the address is subscribed; the subscriber set and other logs stay. */
  function InsertObservedTransaction(s: Store, address: string, tx: Tx): (r: Store)
    ensures r.subs == s.subs
    ensures ObservedLog(r, address) == ObservedLog(s, address) + [tx]
    ensures forall other :: other != address ==> Get(r.observed, other) == Get(s.observed, other)
  {
    s.(observed := Put(s.observed, address, tx))
  }

  /** `GetLastCheckedBlockNumberPerAddress`: the stored value, or -1 for an
      address that is not subscribed; in a valid store it is -1 for every
      address. */
  function GetLastCheckedBlockNumberPerAddress(s: Store, address: string): (n: int)
    ensures address !in s.subs ==> n == NotChecked
    ensures Valid(s) ==> n == NotChecked
  {
    if address in s.subs then s.subs[address] else NotChecked
  }

  /** `GetObservedTransactionsPerAddress`: the log in insertion order, or an
      empty (non-nil) slice when nothing was recorded. */
  function GetObservedTransactionsPerAddress(s: Store, address: string): (r: Slice<Tx>)
    ensures r.Of?
    ensures Items(r) == ObservedLog(s, address)
  {
    var (txs, found) := Get(s.observed, address);
    if !found then Of([]) else txs
  }

  predicate Distinct<T(==)>(xs: seq<T>) {
    forall i, j :: 0 <= i < j < |xs| ==> xs[i] != xs[j]
  }

  /** `addrs` lists every subscriber of `s` exactly once, in some order. */
  predicate IsSnapshot(addrs: seq<string>, s: Store) {
    && Distinct(addrs)
    && (forall i :: 0 <= i < |addrs| ==> addrs[i] in s.subs)
    && (forall a :: a in s.subs ==> a in addrs)
  }

  /** `GetAllSubscriptions`: every subscriber exactly once, in the map's
      iteration order, which is unspecified (here an arbitrary choice). */
  method GetAllSubscriptions(s: Store) returns (addrs: seq<string>)
    ensures IsSnapshot(addrs, s)
    ensures |addrs| == |s.subs.Keys|
  {
    addrs := [];
    var rest := s.subs.Keys;
    while rest != {}
      invariant rest <= s.subs.Keys
      invariant Distinct(addrs)
      invariant forall i :: 0 <= i < |addrs| ==> addrs[i] in s.subs && addrs[i] !in rest
      invariant forall a :: a in s.subs ==> a in addrs || a in rest
      invariant |addrs| + |rest| == |s.subs.Keys|
      decreases |rest|
    {
      var a :| a in rest;
      addrs := addrs + [a];
      rest := rest - {a};
    }
  }
}

=== FILE: tx_history.dfy ===
/** The transaction-history repository (pkg/storage/memory): per-address
    inbound and outbound ledgers plus a "latest block" watermark. The source
    has two copies of it, TransactionHistoryRepository and
    TransactionsRepository, with identical logic; this one module models both.
    Addresses are used verbatim as keys: normalisation is the caller's job. */
module TxHistory {
  import opened Results
  import opened MultiMaps
  import opened Blocks
  import opened Numbers

  datatype Store = Store(
    inbound: MultiMap<string, Tx>,
    outbound: MultiMap<string, Tx>,
    latestBlock: map<string, Int64>)

  /** The watermark reported for an address that was never recorded. */
  const NoBlock: Int64 := -1

  /** `NewTransactionsRepository`: no address has a watermark or a ledger;
      the combined ledger of any address is empty but not nil. */
  function New(): (s: Store)
    ensures forall a :: GetLatestBlockNumberPerAddress(s, a) == NoBlock
    ensures forall a :: GetInboundTransactionsPerAddress(s, a).Nil?
    ensures forall a :: GetOutboundTransactionsPerAddress(s, a).Nil?
    ensures forall a :: GetAllTransactionsPerAddress(s, a) == Of([])
  {
    Store(Empty(), Empty(), map[])
  }

  /** `GetLatestBlockNumberPerAddress`: the last block number stored for the
      address, or -1 if there is none. */
  function GetLatestBlockNumberPerAddress(s: Store, address: string): (n: Int64)
    ensures address !in s.latestBlock ==> n == NoBlock
    ensures address in s.latestBlock ==> n == s.latestBlock[address]
  {
    if address in s.latestBlock then s.latestBlock[address] else NoBlock
  }

  /** `GetInboundTransactionsPerAddress`: nil when the address has no inbound entry. */
  function GetInboundTransactionsPerAddress(s: Store, address: string): (r: Slice<Tx>)
    ensures r.Nil? <==> address !in s.inbound.entries
    ensures Items(r) == Values(s.inbound, address)
  {
    var (txs, found) := Get(s.inbound, address);
    if !found then Nil else txs
  }

  /** `GetOutboundTransactionsPerAddress`: nil when the address has no outbound entry. */
  function GetOutboundTransactionsPerAddress(s: Store, address: string): (r: Slice<Tx>)
    ensures r.Nil? <==> address !in s.outbound.entries
    ensures Items(r) == Values(s.outbound, address)
  {
    var (txs, found) := Get(s.outbound, address);
    if !found then Nil else txs
  }

  /** `GetAllTransactionsPerAddress`: the inbound ledger followed by the
      outbound one, appended to a fresh empty slice, so never nil. */
  function GetAllTransactionsPerAddress(s: Store, address: string): (r: Slice<Tx>)
    ensures r.Of?
    ensures Items(r) == Values(s.inbound, address) + Values(s.outbound, address)
  {
    var txs := Append(Of([]), Items(GetInboundTransactionsPerAddress(s, address)));
    Append(txs, Items(GetOutboundTransactionsPerAddress(s, address)))
  }

  /** Two stores show the same ledgers and watermark for `address`. */
  predicate AgreeAt(s: Store, t: Store, address: string) {
    && GetInboundTransactionsPerAddress(s, address) == GetInboundTransactionsPerAddress(t, address)
    && GetOutboundTransactionsPerAddress(s, address) == GetOutboundTransactionsPerAddress(t, address)
    && GetLatestBlockNumberPerAddress(s, address) == GetLatestBlockNumberPerAddress(t, address)
  }

  /** `Insert`: overwrites the watermark with `blockNumber` (even a smaller
      one: last writer wins) and appends `tx` to exactly one ledger, chosen by
      `isInbound`. Every other address is untouched. */
  function Insert(s: Store, address: string, blockNumber: Int64, tx: Tx, isInbound: bool): (r: Store)
    ensures GetLatestBlockNumberPerAddress(r, address) == blockNumber
    ensures isInbound ==>
      && GetInboundTransactionsPerAddress(r, address) == Of(Values(s.inbound, address) + [tx])
      && GetOutboundTransactionsPerAddress(r, address) == GetOutboundTransactionsPerAddress(s, address)
    ensures !isInbound ==>
      && GetOutboundTransactionsPerAddress(r, address) == Of(Values(s.outbound, address) + [tx])
      && GetInboundTransactionsPerAddress(r, address) == GetInboundTransactionsPerAddress(s, address)
    ensures forall other :: other != address ==> AgreeAt(r, s, other)
  {
    var latest := s.latestBlock[address := blockNumber];
    if isInbound then s.(inbound := Put(s.inbound, address, tx), latestBlock := latest)
    else s.(outbound := Put(s.outbound, address, tx), latestBlock := latest)
  }

  /** Inserting grows the full ledger by exactly the one transaction: at the
      end of the inbound part or at the very end. */
  lemma InsertGrowsLedger(s: Store, address: string, blockNumber: Int64, tx: Tx, isInbound: bool)
    ensures var all := Items(GetAllTransactionsPerAddress(s, address));
            var all' := Items(GetAllTransactionsPerAddress(Insert(s, address, blockNumber, tx, isInbound), address));
            && |all'| == |all| + 1
            && (isInbound ==> all' == Values(s.inbound, address) + [tx] + Values(s.outbound, address))
            && (!isInbound ==> all' == all + [tx])
  {
  }

  /** The full ledger lists inbound before outbound whatever the insertion
      order: recording t1 inbound and t2 outbound gives [t1, t2] either way. */
  lemma InboundBeforeOutbound(address: string, n1: Int64, n2: Int64, t1: Tx, t2: Tx)
    ensures var s := Insert(Insert(New(), address, n1, t1, true), address, n2, t2, false);
            GetAllTransactionsPerAddress(s, address) == Of([t1, t2])
    ensures var s := Insert(Insert(New(), address, n2, t2, false), address, n1, t1, true);
            GetAllTransactionsPerAddress(s, address) == Of([t1, t2])
  {
  }

  /** The full ledger's length is the sum of the two directions' lengths. */
  lemma LedgerLength(s: Store, address: string)
    ensures |Items(GetAllTransactionsPerAddress(s, address))|
         == |Items(GetInboundTransactionsPerAddress(s, address))| + |Items(GetOutboundTransactionsPerAddress(s, address))|
  {
  }

  /** A store every entry of which was written by `Insert`. */
  ghost predicate Valid(s: Store) {
    MultiMaps.Valid(s.inbound) && MultiMaps.Valid(s.outbound)
  }

  lemma InsertKeepsValid(s: Store, address: string, blockNumber: Int64, tx: Tx, isInbound: bool)
    requires Valid(s)
    ensures Valid(Insert(s, address, blockNumber, tx, isInbound))
  {
    if isInbound { PutKeepsValid(s.inbound, address, tx); } else { PutKeepsValid(s.outbound, address, tx); }
  }

  /** A fresh repository satisfies the invariant `Insert` keeps. */
  lemma NewIsValid()
    ensures Valid(New())
  {
  }

  /** In a valid store a per-direction getter returns nil exactly when the
      address has no transaction in that direction. */
  lemma NilIffNoTransactions(s: Store, address: string)
    requires Valid(s)
    ensures GetInboundTransactionsPerAddress(s, address).Nil? <==> Values(s.inbound, address) == []
    ensures GetOutboundTransactionsPerAddress(s, address).Nil? <==> Values(s.outbound, address) == []
  {
    FoundIffValues(s.inbound, address);
    FoundIffValues(s.outbound, address);
  }
}
